=== FILE: README.md ===
# Atomic primitives of `stdatomic_asm.h`, and the counter benchmark of `main.cpp`

`stdatomic_asm.h` implements C11-style atomics with inline assembly, for
two back-ends:

- **RISC-V.** The load, store, compare-exchange and read-modify-write
  macros dispatch on a memory order and on the cell size. They emit plain
  loads and stores between fences, one AMO, or an LR/SC loop. The flag
  macros always work on one aligned 32-bit word, `atomic_thread_fence`
  dispatches on the order alone, and `atomic_signal_fence` on neither.
- **x86-64.** It uses locked instructions and a compare-exchange loop.

`main.cpp` runs two threads, each doing one million atomic increments. One
test uses `atomic_fetch_add`; the other uses a read / compare-exchange
retry loop.

This Dafny project models the sequential meaning of that code:

- **`Orders`**: the six memory orders.
- **`Words`**: cells of 8, 16, 32 and 64 bits as naturals below 2^w. Conversion to the cell type is reduction mod 2^w (C11 section 6.3.1.3). Bitwise and/or/xor are defined on naturals.
- **`RiscvIsa`**: the instructions the macros emit. Their effect on one cell is given in the terms of the RISC-V Unprivileged ISA 20191213: section 2.7 for FENCE, section 8.2 for LR/SC and section 8.4 for AMOs. The strong LR/SC loop takes, as a parameter, the stores other harts slip in between `lr` and `sc`.
- **`RiscvSelect`**: the selection tables, from memory order and size to code. Each table is stated against what the order obliges, following section 7.17.3 of C11 and Appendix A.5 of the RISC-V ISA.
- **`RiscvAtomics`**: the RISC-V load, store, compare-exchange and read-modify-write macros, as the code is written. It selects the code, runs it on the cell, and reports the value returned and the cell afterwards.
- **`X86Atomics`**: `lock cmpxchg`, `xchg`, `lock xadd`, and the compare-exchange loop behind fetch_and, fetch_or and fetch_xor. The loop is modelled with arbitrary interfering stores.
- **`AtomicFlag`**: the byte flag inside its aligned 32-bit word. Addresses and words are bit-vectors. `atomic_thread_fence` is the fence table in `RiscvSelect`.
- **`Backends`**: the two back-ends side by side. It also holds the RISC-V operations as evidently intended, proved equal to the x86-64 ones.
- **`Harness`**: the four local helpers of `main.cpp`, and the two workers as interleaving state machines. In each state machine every macro call is one atomic step, and a schedule chooses which thread moves.

## Model

| member | source | states |
|---|---|---|
| `RiscvSelect.LoadCode` | stdatomic_asm.h:46-70 | One load. A trailing `fence r,rw` exactly for acquire and seq_cst. A leading full fence exactly for seq_cst. Nothing else: two instructions for acquire, three for seq_cst, and everything after the load is `fence r,rw`. Every other order, consume included, gives the bare load. |
| `RiscvSelect.StoreCode` | stdatomic_asm.h:118-140 | One store, last. A single leading `fence rw,w` exactly for release and seq_cst, and no other instruction. Every other order gives the bare store. |
| `RiscvSelect.AmoAnnot` | stdatomic_asm.h:265-298 | The AMO carries `.aq` exactly for acquire-class orders, with consume promoted. It carries `.rl` exactly for release-class orders. |
| `RiscvSelect.CasAnnots` | stdatomic_asm.h:188-221 | `lr` is acquire for acquire-class orders, and also release only for seq_cst. `sc` is release exactly for release-class orders and never acquire. |
| `RiscvSelect.ThreadFenceCode` | stdatomic_asm.h:458-481 | Relaxed alone gives only a compiler barrier. The fence orders reads before later accesses exactly for acquire-class orders. It orders accesses before later writes exactly for release-class orders. |
| `RiscvSelect.WidthSwitchMatchesIsa` | stdatomic_asm.h:11-262 | Each width switch accepts a size exactly when every selected instruction exists on the hart. Loads and stores take 1, 2, 4 and 8 bytes; CAS and AMO take 4 and 8; 8 needs xlen >= 64. |
| `RiscvSelect.ConsumeHandling` | stdatomic_asm.h:52-479 | Consume equals acquire in the AMO, CAS and fence tables. In the load table it equals relaxed and differs from acquire. |
| `RiscvIsa.LrScLoop` | stdatomic_asm.h:158-169 | Under any interfering stores, the LR/SC loop acts as one compare-and-swap on the value its last `lr` read. That value is the cell or an interfering store, and it is the cell when nothing interferes. |
| `RiscvAtomics.AtomicLoadExplicit` | stdatomic_asm.h:52-68 | Emits the load table's code for the order. Any order returns the cell and leaves it unchanged. The code is encodable on the hart. |
| `RiscvAtomics.AtomicLoad` | stdatomic_asm.h:70 | The default load is the seq_cst code (full fence, load, `fence r,rw`) with the same result. |
| `RiscvAtomics.AtomicStoreExplicit` | stdatomic_asm.h:124-138 | Emits the store table's code for the order. Any order leaves the value, converted to the cell type, in the cell. |
| `RiscvAtomics.AtomicStore` | stdatomic_asm.h:140 | The default store is `fence rw,w` then the store. |
| `RiscvAtomics.CompareExchangeStrongExplicit` | stdatomic_asm.h:146-186 | Emits the LR/SC loop with the success order's suffixes. Returns the value the last `lr` read. The cell takes `desired` exactly when that value equals `*exp`, and otherwise keeps that value. `*exp` is never written. |
| `RiscvAtomics.CompareExchangeStrong` | stdatomic_asm.h:223-224 | The default form emits `lr.aqrl` / `sc.rl`. It returns the value the last `lr` read, which is the old cell or an interfering store (the old cell when uncontended). The cell takes `desired` exactly when that value equals `*exp`. `*exp` is never written. |
| `RiscvAtomics.CompareExchangeWeakExplicit` | stdatomic_asm.h:230-231 | The weak form is the strong form, and the failure order changes nothing. |
| `RiscvAtomics.CompareExchangeWeak` | stdatomic_asm.h:228-229 | The default weak form is the default strong form. |
| `RiscvAtomics.AtomicOp` | stdatomic_asm.h:237-298 | One AMO, with the order's suffix. It returns the old cell and writes `op(old, arg converted)`. |
| `RiscvAtomics.ExchangeExplicit` | stdatomic_asm.h:305 | One `amoswap` with the order's suffix. Returns the old value; the cell becomes the argument. |
| `RiscvAtomics.FetchAddExplicit` | stdatomic_asm.h:312 | One `amoadd` with the order's suffix. Returns the old value; the cell becomes (old + arg) mod 2^w. |
| `RiscvAtomics.FetchSubExplicit` | stdatomic_asm.h:319 | One `amoadd` of `-arg` with the order's suffix. It returns the old value and leaves (old - arg) mod 2^w. |
| `RiscvAtomics.FetchOrExplicit` | stdatomic_asm.h:326 | As written: one `amoor` of `-arg` with the order's suffix; the cell becomes old OR (-arg mod 2^w). |
| `RiscvAtomics.FetchXorExplicit` | stdatomic_asm.h:333 | As written: one `amoxor` of `-arg` with the order's suffix; the cell becomes old XOR (-arg mod 2^w). |
| `RiscvAtomics.FetchAndExplicit` | stdatomic_asm.h:340 | As written: one `amoand` of `-arg` with the order's suffix; the cell becomes old AND (-arg mod 2^w). |
| `RiscvAtomics.Exchange` | stdatomic_asm.h:304 | The default exchange is one `amoswap.aqrl`, with the exchange result. |
| `RiscvAtomics.FetchAdd` | stdatomic_asm.h:311 | The default fetch_add is one `amoadd.aqrl`, with the fetch_add result. |
| `RiscvAtomics.FetchSub` | stdatomic_asm.h:318 | The default fetch_sub is one `amoadd.aqrl` of `-arg`, with the fetch_sub result. |
| `RiscvAtomics.FetchOr` | stdatomic_asm.h:325 | The default fetch_or is one `amoor.aqrl` of `-arg`. |
| `RiscvAtomics.FetchXor` | stdatomic_asm.h:332 | The default fetch_xor is one `amoxor.aqrl` of `-arg`. |
| `RiscvAtomics.FetchAnd` | stdatomic_asm.h:339 | The default fetch_and is one `amoand.aqrl` of `-arg`. |
| `RiscvAtomics.ExchangeThenLoad` | stdatomic_asm.h:304-305 | A load after an exchange returns the exchanged value, for any two orders. |
| `RiscvAtomics.FetchSubUndoesFetchAdd` | stdatomic_asm.h:311-319 | fetch_sub of what fetch_add added restores the cell, modulo 2^w included. |
| `RiscvAtomics.StoreThenLoad` | stdatomic_asm.h:52-140 | A load after a store reads the stored value converted to the cell type, for any two orders. |
| `X86Atomics.CompareExchangeStrong` | stdatomic_asm.h:496-529 | Success exactly when the cell equals `*exp`. The cell then takes `desired`, and otherwise is unchanged. `*exp` afterwards holds the old cell, so it is unchanged on success. |
| `X86Atomics.Exchange` | stdatomic_asm.h:534-552 | Returns the old value; the cell becomes the argument. |
| `X86Atomics.FetchAdd` | stdatomic_asm.h:557-580 | Returns the old value; the cell becomes (old + arg) mod 2^w. |
| `X86Atomics.FetchOpLoop` | stdatomic_asm.h:585-593 | Under any interfering stores, the loop returns the value its successful compare-exchange replaced, and the cell is that value `op` arg. The returned value is the cell or an interfering store; it is the cell when nothing interferes. |
| `X86Atomics.FetchAnd` | stdatomic_asm.h:595 | The cell is the returned value AND arg. The returned value is the old cell or an interfering store, and the old cell when uncontended. |
| `X86Atomics.FetchOr` | stdatomic_asm.h:596 | The cell is the returned value OR arg. The returned value is the old cell or an interfering store, and the old cell when uncontended. |
| `X86Atomics.FetchXor` | stdatomic_asm.h:597 | The cell is the returned value XOR arg. The returned value is the old cell or an interfering store, and the old cell when uncontended. |
| `X86Atomics.FetchAndOrderIrrelevant` | stdatomic_asm.h:585-595 | Any number of uncontended fetch_ands leave the same cell in every order: any permutation of the masks gives the same result. |
| `AtomicFlag.ByteShift` | stdatomic_asm.h:349 | The shift is 0, 8, 16 or 24. |
| `AtomicFlag.WordAddress` | stdatomic_asm.h:350 | The word address has its two low bits clear and lies `addr & 3` bytes below the flag. |
| `AtomicFlag.ShiftedByte` | stdatomic_asm.h:357 | `(result >> shift) & 0xff` is the flag's byte of the word. |
| `AtomicFlag.MaskValues` | stdatomic_asm.h:351-407 | `1 << shift` is bit 0 of the flag byte. `~(0xff << shift)` is every bit outside it. |
| `AtomicFlag.FlagWasSet` | stdatomic_asm.h:357 | The returned flag is true exactly when the flag byte was nonzero. |
| `AtomicFlag.SetFlagByte` | stdatomic_asm.h:351-355 | After `amoor.w` the flag byte has bit 0 set and all its other bits kept. Every bit outside the byte is unchanged. |
| `AtomicFlag.ClearFlagByte` | stdatomic_asm.h:407-411 | After `amoand.w` the flag byte is zero. Every bit outside it is unchanged. |
| `AtomicFlag.TestAndSetExplicit` | stdatomic_asm.h:370-393 | `amoor.w` with the order's suffix on the aligned word. It returns whether the flag byte was nonzero, ORs 1 into that byte, and leaves the rest of the word alone. |
| `AtomicFlag.ClearExplicit` | stdatomic_asm.h:426-449 | `amoand.w` with the order's suffix. It returns whether the flag byte was nonzero, zeroes that byte, and leaves the rest of the word alone. |
| `AtomicFlag.TestAndSet` | stdatomic_asm.h:396 | Ignores its order argument and uses `.aqrl`. |
| `AtomicFlag.Clear` | stdatomic_asm.h:452 | Ignores its order argument and uses `.aqrl`. |
| `AtomicFlag.FlagRoundTrip` | stdatomic_asm.h:346-413 | After clear, test-and-set returns false and a second one returns true. A clear then returns true and zeroes the byte again, with the rest of the word as it started. |
| `Backends.CompareExchangeCellsAgree` | stdatomic_asm.h:496-529 | Uncontended, both back-ends leave the same cell. x86 succeeds exactly when the RISC-V return value equals `*exp`. x86 writes that value into `*exp`, and RISC-V leaves `*exp` alone. |
| `Backends.CompareExchangeResultsDiverge` | stdatomic_asm.h:146-186 | Cell 5, `*exp` 3: RISC-V returns 5 with `*exp` still 3; x86 returns false with `*exp` = 5. |
| `Backends.ExchangeAndFetchAddAgree` | stdatomic_asm.h:534-580 | Exchange and fetch_add return the same value and leave the same cell on both back-ends. |
| `Backends.NegOfConv` | stdatomic_asm.h:325 | `-arg` in the cell type is 2^w - arg, or 0 for 0. |
| `Backends.SelfNegating` | stdatomic_asm.h:325-340 | `-arg` equals `arg` in the cell type exactly for 0 and 2^(w-1). |
| `Backends.FetchOrAgreesIff` | stdatomic_asm.h:325-326 | From a zero cell, RISC-V fetch_or leaves `-arg` and x86 leaves `arg`. They agree on every cell exactly when `arg` is 0 or 2^(w-1). |
| `Backends.FetchXorAgreesIff` | stdatomic_asm.h:332-333 | The same for fetch_xor. |
| `Backends.FetchOrOneDiverges` | stdatomic_asm.h:325 | fetch_or(0, 1) on 32 bits: RISC-V leaves 0xFFFFFFFF, x86 leaves 1. |
| `Backends.FetchAndOneDiverges` | stdatomic_asm.h:339 | fetch_and(2, 1) on 32 bits: RISC-V leaves 2, x86 leaves 0. |
| `Backends.FetchOrIntended` | stdatomic_asm.h:237-262 | One AMO of `arg` itself. It returns the old cell, and the cell becomes old OR arg. |
| `Backends.FetchXorIntended` | stdatomic_asm.h:237-262 | The same with XOR. |
| `Backends.FetchAndIntended` | stdatomic_asm.h:237-262 | The same with AND. |
| `Backends.IntendedLogicOpsAgree` | stdatomic_asm.h:585-597 | The intended RISC-V fetch_or, fetch_xor and fetch_and equal the uncontended x86 loop in value returned and cell left. |
| `Backends.CompareExchangeC11` | stdatomic_asm.h:146-186 | A compare-exchange on the LR/SC loop that returns success as a flag and writes the value read into `*exp`. Success holds exactly when `*exp` is unchanged. |
| `Backends.CompareExchangeC11Agrees` | stdatomic_asm.h:496-529 | Uncontended, the C11 RISC-V compare-exchange equals the x86 one in every field. |
| `Harness.AtomicAddRiscv` | main.cpp:28-33 | Returns the old value; the cell becomes (old + val) mod 2^32. |
| `Harness.AtomicCasRiscv` | main.cpp:37-50 | Returns the value the last `lr.w` read. The cell takes `desired` exactly when that value was `expected`. Uncontended, that value is the old cell. |
| `Harness.AtomicAddX86` | main.cpp:67-72 | Returns the old value; the cell becomes (old + val) mod 2^32. |
| `Harness.AtomicCasX86` | main.cpp:76-81 | Returns the old cell. The cell takes `desired` exactly when it was `expected`. |
| `Harness.HelpersAgree` | main.cpp:26-81 | Uncontended, the RISC-V and x86 helpers give identical results. |
| `Harness.FetchAddOne` | main.cpp:95 | `atomic_fetch_add(&g_var_add, 1)` adds 1 mod 2^32 on either back-end. |
| `Harness.AddStep` | main.cpp:94-95 | An unfinished worker adds 1 mod 2^32 to `g_var_add` and completes one iteration. A missing or finished worker changes nothing, and the other workers never change. |
| `Harness.AddStepKeepsInv` | main.cpp:94-95 | One step keeps "counter = iterations completed, none beyond `ITERATIONS`". |
| `Harness.AddRunKeepsInv` | main.cpp:92-97 | Every schedule keeps that invariant, on either back-end. |
| `Harness.AddFinalValue` | main.cpp:139-177 | Under any interleaving `g_var_add` never exceeds 2,000,000. It equals 2,000,000 exactly when both workers have finished. |
| `Harness.AddRoundRobin` | main.cpp:142-150 | A round-robin schedule finishes every worker, and the counter then equals threads times iterations. |
| `Harness.CasAttempt` | main.cpp:121-123 | The compare-exchange of `expected` for `expected + 1` bumps the counter exactly when it still holds `expected`. With the x86 flag, or the `!= expected` test, the loop exits exactly on success. With the RISC-V header and `!= true`, it exits exactly when the old value was 1. |
| `Harness.CasStep` | main.cpp:119-123 | A read step loads `g_var_cas` into the worker's `expected`. A compare-exchange step applies `CasAttempt` to the counter and completes an iteration exactly when the loop exits. A missing or finished worker changes nothing, and no other worker changes. |
| `Harness.CasStepKeepsInv` | main.cpp:117-125 | With a correct exit test, one step keeps "counter = iterations completed". |
| `Harness.CasRunKeepsInv` | main.cpp:117-125 | With a correct exit test, every schedule keeps it. |
| `Harness.CasFinalValue` | main.cpp:158-177 | With a correct exit test, `g_var_cas` ends at most 2,000,000, and equals it exactly when both workers finish. |
| `Harness.RiscvAsWrittenDoubleCounts` | main.cpp:117-125 | With the RISC-V header and `!= true`, four steps of one worker take the counter to 2 while only one iteration has completed. |
| `Harness.SumBound` | main.cpp:119 | With every count at most `ITERATIONS`, their sum is at most threads times iterations. It equals that exactly when every count is `ITERATIONS`. |

## Left out

- Weak-memory behaviour (RVWMO, x86-TSO). What a fence or an `.aq`/`.rl` suffix forbids is given as data (`FenceOrders`, `HasAq`, `HasRl`), not as reordering rules. Each model runs on one cell, sequentially.
- `atomic_signal_fence` (stdatomic_asm.h:487) is a compiler barrier only, with no effect on the cell.
- RiscvAtomics.FetchSubExplicit: the argument is taken as a mathematical integer, negated, then reduced to the cell width. In C, `-(arg)` is computed in the argument's own type first, so a narrower unsigned argument (a `uint32_t` 1 into a `uint64_t` cell) adds 0xFFFFFFFF instead of subtracting 1. Arguments are assumed to have the cell's type or a signed type.
- RiscvAtomics.FetchOrExplicit: the same assumption about the type of `-arg`.
- RiscvAtomics.FetchXorExplicit: the same assumption about the type of `-arg`.
- RiscvAtomics.FetchAndExplicit: the same assumption about the type of `-arg`.
- RiscvAtomics.FetchSubUndoesFetchAdd: holds for arguments of the cell's type or a signed type. With a narrower unsigned argument, the subtraction uses a different negation.
- Backends.FetchOrAgreesIff: the threshold 2^(w-1) assumes the argument has the cell's type or a signed type. A narrower unsigned argument is negated at its own width, which moves the threshold.
- Backends.FetchXorAgreesIff: the same assumption as `Backends.FetchOrAgreesIff`.
- Inline-asm operand constraints, `__typeof__`, `__extension__` and the unparenthesised `-arg` in the macro bodies. The model negates the whole argument.
- RV64 sign-extension of `lr.w` results before the `bne` compare. Values are compared as unsigned cell values.
- Forward progress of the LR/SC and compare-exchange loops (section 8.3 of the RISC-V ISA). Interference is a finite list of stores: every modelled run ends, and a run that loops forever is not represented.
- Memory orders given as integers outside the six named ones. These take the `default:` branch, the same as relaxed; the model's `MemoryOrder` type has only the six.
- Signed cell types. Cells are unsigned.
- The x86-64 section defines no load, store, fetch_sub, flag or fence macros, so none is modelled for it.
- Timing (`rdcycle`, `rdtsc`, `std::chrono`), console output, and thread creation and joining in `main.cpp`. Threads are the schedule of the state machines.
- Both threads finishing in the CAS benchmark (liveness) is not proved. Only what holds under every schedule is.
- The flag word is computed with 32-bit bit-vector operations. `TestAndSetExplicit` and `ClearExplicit` record the AMO they issue, but the word is not run through `RiscvIsa.Exec`.

## Findings

| source | as written | input that shows it | evidently intended | confidence | as-written member | corrected member |
|---|---|---|---|---|---|---|
| stdatomic_asm.h:325-326 | `atomic_fetch_or` hands `-arg` to `amoor` | fetch_or(0, 1) on a 32-bit cell leaves 0xFFFFFFFF | `arg` to the AMO, leaving 1, as the x86-64 macro does | high, not executed | `Backends.FetchOrOneDiverges` | `Backends.FetchOrIntended` |
| stdatomic_asm.h:332-333 | `atomic_fetch_xor` hands `-arg` to `amoxor` | fetch_xor(0, 1) on a 32-bit cell leaves 0xFFFFFFFF | `arg` to the AMO, leaving 1 | high, not executed | `Backends.FetchXorAgreesIff` | `Backends.FetchXorIntended` |
| stdatomic_asm.h:339-340 | `atomic_fetch_and` hands `-arg` to `amoand` | fetch_and(2, 1) on a 32-bit cell leaves 2 | `arg` to the AMO, leaving 0 | high, not executed | `Backends.FetchAndOneDiverges` | `Backends.FetchAndIntended` |
| stdatomic_asm.h:146-186 | RISC-V `atomic_compare_exchange_strong` returns the loaded value and never writes `*exp` | cell 5, `*exp` 3: returns 5 (true as a flag), `*exp` stays 3 | a success flag, with the loaded value written back to `*exp` (section 7.17.7.4 of C11) | medium, not executed | `Backends.CompareExchangeResultsDiverge` | `Backends.CompareExchangeC11` |
| main.cpp:123 | the retry loop exits on `!= true`, which with the RISC-V header means "old value == 1" | one worker from 0: its CAS succeeds returning 0, it retries, succeeds from 1 and exits; counter 2 after one iteration | exit on success, as in the commented-out `!= expected` at main.cpp:110 | high, not executed | `Harness.RiscvAsWrittenDoubleCounts` | `Harness.CasFinalValue` |

=== FILE: atomic_flag.dfy ===
/**
 * `atomic_flag_test_and_set` and `atomic_flag_clear` on RISC-V. The A
 * extension has no byte AMO, so the macros work on the aligned 32-bit word
 * holding the flag's byte: the byte sits `(addr & 3) << 3` bits up in the
 * little-endian word, test-and-set ORs bit 0 of that byte in with `amoor.w`,
 * clear ANDs the whole byte out with `amoand.w`, and both return whether the
 * byte was nonzero before.
 *
 * Addresses are `bv64` (`unsigned long` on RV64) and the word is `bv32`.
 */
module AtomicFlag {
  import opened Orders
  import opened Words
  import opened RiscvIsa
  import opened RiscvSelect

  /** Index (0 to 3, least significant first) of the flag's byte in its word: `addr & 3`. */
  function Lane(addr: bv64): (j: nat)
    ensures j < 4
  {
    var a := addr & 3;
    if a == 0 then 0 else if a == 1 then 1 else if a == 2 then 2 else 3
  }

  /** `(addr & 3) << 3`: the flag byte's bit offset in the word. */
  function ByteShift(addr: bv64): (s: bv32)
    ensures s == 0 || s == 8 || s == 16 || s == 24
  {
    ((addr & 3) << 3) as bv32
  }

  /** `addr & ~3`: the aligned word holding the flag byte, at most three bytes below it. */
  function WordAddress(addr: bv64): (a: bv64)
    ensures a & 3 == 0
    ensures a + (addr & 3) == addr
  {
    addr & !3
  }

  /** The bits of byte `k` of a word, least significant byte first. */
  function ByteMask(k: nat): bv32
    requires k < 4
  {
    if k == 0 then 0xff else if k == 1 then 0xff00 else if k == 2 then 0xff_0000 else 0xff00_0000
  }

  /** Byte `k` of a word, least significant first. */
  function ByteOf(word: bv32, k: nat): bv32
    requires k < 4
  {
    if k == 0 then word & 0xff
    else if k == 1 then (word >> 8) & 0xff
    else if k == 2 then (word >> 16) & 0xff
    else word >> 24
  }

  /** `1 << shift`, the test-and-set operand. */
  function SetMask(addr: bv64): bv32
  {
    1 << ByteShift(addr)
  }

  /**
   * `~(0xff << shift)`, the clear operand. In C, `0xff << 24` overflows a
   * signed `int`; the mask is taken as its 32-bit pattern.
   */
  function ClearMask(addr: bv64): bv32
  {
    !(0xff << ByteShift(addr))
  }

  lemma ShiftedByte(word: bv32, addr: bv64)
    ensures (word >> ByteShift(addr)) & 0xff == ByteOf(word, Lane(addr))
  {
    var a := addr & 3;
    if a == 0 {
      assert ByteShift(addr) == 0 && Lane(addr) == 0;
    } else if a == 1 {
      assert ByteShift(addr) == 8 && Lane(addr) == 1;
    } else if a == 2 {
      assert ByteShift(addr) == 16 && Lane(addr) == 2;
    } else {
      assert ByteShift(addr) == 24 && Lane(addr) == 3;
    }
  }

  /** The set mask is bit 0 of the flag byte; the clear mask is every bit outside it. */
  lemma MaskValues(addr: bv64)
    ensures SetMask(addr) == ByteMask(Lane(addr)) & 0x0101_0101
    ensures ClearMask(addr) == !ByteMask(Lane(addr))
  {
    var a := addr & 3;
    if a == 0 {
      assert ByteShift(addr) == 0 && Lane(addr) == 0;
    } else if a == 1 {
      assert ByteShift(addr) == 8 && Lane(addr) == 1;
    } else if a == 2 {
      assert ByteShift(addr) == 16 && Lane(addr) == 2;
    } else {
      assert ByteShift(addr) == 24 && Lane(addr) == 3;
    }
  }

  lemma SetOnLane(word: bv32, j: nat)
    requires j < 4
    ensures ByteOf(word | (ByteMask(j) & 0x0101_0101), j) == ByteOf(word, j) | 1
    ensures (word | (ByteMask(j) & 0x0101_0101)) & !ByteMask(j) == word & !ByteMask(j)
  {
  }

  lemma ClearOnLane(word: bv32, j: nat)
    requires j < 4
    ensures ByteOf(word & !ByteMask(j), j) == 0
    ensures (word & !ByteMask(j)) & !ByteMask(j) == word & !ByteMask(j)
  {
  }

  lemma SetLane(addr: bv64, word: bv32)
    ensures ByteOf(word | SetMask(addr), Lane(addr)) == ByteOf(word, Lane(addr)) | 1
  {
    MaskValues(addr);
    SetOnLane(word, Lane(addr));
  }

  lemma SetOthers(addr: bv64, word: bv32)
    ensures (word | SetMask(addr)) & !ByteMask(Lane(addr)) == word & !ByteMask(Lane(addr))
  {
    MaskValues(addr);
    SetOnLane(word, Lane(addr));
  }

  lemma ClearLane(addr: bv64, word: bv32)
    ensures ByteOf(word & ClearMask(addr), Lane(addr)) == 0
  {
    MaskValues(addr);
    ClearOnLane(word, Lane(addr));
  }

  lemma ClearOthers(addr: bv64, word: bv32)
    ensures (word & ClearMask(addr)) & !ByteMask(Lane(addr)) == word & !ByteMask(Lane(addr))
  {
    MaskValues(addr);
    ClearOnLane(word, Lane(addr));
  }

  /** `(result >> shift) & 0xff`, read as a bool: the flag byte of the old word was nonzero. */
  function FlagWasSet(addr: bv64, word: bv32): (b: bool)
    ensures b <==> ByteOf(word, Lane(addr)) != 0
  {
    ShiftedByte(word, addr);
    (word >> ByteShift(addr)) & 0xff != 0
  }

  /** The word after `amoor.w` of the set mask: bit 0 of the flag byte set, every other bit kept. */
  function SetFlagByte(addr: bv64, word: bv32): (w: bv32)
    ensures ByteOf(w, Lane(addr)) == ByteOf(word, Lane(addr)) | 1
    ensures w & !ByteMask(Lane(addr)) == word & !ByteMask(Lane(addr))
  {
    SetLane(addr, word);
    SetOthers(addr, word);
    word | SetMask(addr)
  }

  /** The word after `amoand.w` of the clear mask: flag byte zero, every other bit kept. */
  function ClearFlagByte(addr: bv64, word: bv32): (w: bv32)
    ensures ByteOf(w, Lane(addr)) == 0
    ensures w & !ByteMask(Lane(addr)) == word & !ByteMask(Lane(addr))
  {
    ClearLane(addr, word);
    ClearOthers(addr, word);
    word & ClearMask(addr)
  }

  /** The word operated on, the AMO issued, the value returned, and the word afterwards. */
  datatype FlagEffect = FlagEffect(wordAddr: bv64, code: Instr, previous: bool, word: bv32)

  /**
   * `__atomic_flag_test_and_set`: `amoor.w` of the set mask into the aligned
   * word. It ORs 1 into the flag byte, leaves every bit outside that byte
   * alone, and returns whether the flag byte was nonzero.
   */
  function TestAndSetExplicit(o: MemoryOrder, addr: bv64, word: bv32): (r: FlagEffect)
    ensures r.wordAddr == WordAddress(addr)
    ensures r.code == Amo(AmoOr, W32, AmoAnnot(o), SetMask(addr) as int)
    ensures r.previous <==> ByteOf(word, Lane(addr)) != 0
    ensures ByteOf(r.word, Lane(addr)) == ByteOf(word, Lane(addr)) | 1
    ensures r.word & !ByteMask(Lane(addr)) == word & !ByteMask(Lane(addr))
  {
    FlagEffect(WordAddress(addr), Amo(AmoOr, W32, AmoAnnot(o), SetMask(addr) as int),
               FlagWasSet(addr, word), SetFlagByte(addr, word))
  }

  /**
   * `__atomic_flag_clear`: `amoand.w` of the clear mask into the aligned
   * word. It zeroes the whole flag byte, leaves every bit outside it alone,
   * and returns whether the flag byte was nonzero.
   */
  function ClearExplicit(o: MemoryOrder, addr: bv64, word: bv32): (r: FlagEffect)
    ensures r.wordAddr == WordAddress(addr)
    ensures r.code == Amo(AmoAnd, W32, AmoAnnot(o), ClearMask(addr) as int)
    ensures r.previous <==> ByteOf(word, Lane(addr)) != 0
    ensures ByteOf(r.word, Lane(addr)) == 0
    ensures r.word & !ByteMask(Lane(addr)) == word & !ByteMask(Lane(addr))
  {
    FlagEffect(WordAddress(addr), Amo(AmoAnd, W32, AmoAnnot(o), ClearMask(addr) as int),
               FlagWasSet(addr, word), ClearFlagByte(addr, word))
  }

  /** `atomic_flag_test_and_set(obj, order)` ignores `order` and uses seq_cst (`amoor.w.aqrl`). */
  function TestAndSet(addr: bv64, word: bv32, ignored: MemoryOrder): (r: FlagEffect)
    ensures r.code.Amo? && r.code.annot == AqRl
    ensures r == TestAndSetExplicit(SeqCst, addr, word)
  {
    TestAndSetExplicit(SeqCst, addr, word)
  }

  /** `atomic_flag_clear(obj, order)` ignores `order` and uses seq_cst (`amoand.w.aqrl`). */
  function Clear(addr: bv64, word: bv32, ignored: MemoryOrder): (r: FlagEffect)
    ensures r.code.Amo? && r.code.annot == AqRl
    ensures r == ClearExplicit(SeqCst, addr, word)
  {
    ClearExplicit(SeqCst, addr, word)
  }

  /**
   * Clear, then test-and-set twice, then clear, all on the same flag: the
   * first test-and-set reports clear, the second reports set, the final
   * clear reports set and leaves the byte zero; the bits outside the flag
   * byte are never disturbed. The orders of the four calls play no part.
   */
  lemma FlagRoundTrip(o1: MemoryOrder, o2: MemoryOrder, o3: MemoryOrder, o4: MemoryOrder,
                      addr: bv64, word: bv32)
    ensures var c := ClearExplicit(o1, addr, word);
            var t1 := TestAndSetExplicit(o2, addr, c.word);
            var t2 := TestAndSetExplicit(o3, addr, t1.word);
            var c2 := ClearExplicit(o4, addr, t2.word);
            && !t1.previous && t2.previous && c2.previous
            && ByteOf(c2.word, Lane(addr)) == 0
            && c2.word & !ByteMask(Lane(addr)) == word & !ByteMask(Lane(addr))
  {
  }
}

=== FILE: backends.dfy ===
/**
 * The two back-ends of `stdatomic_asm.h` side by side. Exchange, fetch_add
 * and the cell effect of compare-exchange agree; what the caller gets back
 * from compare-exchange differs (the loaded value against a success flag
 * with `*exp` written back); and fetch_or / fetch_xor / fetch_and disagree,
 * because the RISC-V macros hand `-arg` to the AMO.
 *
 * Alongside the code as written, this module defines the RISC-V operations
 * as evidently intended (`arg` to the AMO; a C11 compare-exchange) and proves
 * that they agree with the x86-64 back-end.
 */
module Backends {
  import opened Orders
  import opened Words
  import opened RiscvIsa
  import opened RiscvSelect
  import Rv = RiscvAtomics
  import X86 = X86Atomics

  /*
   * Where the back-ends agree
   */

  /**
   * Uncontended compare-exchange: both leave the same cell; x86 succeeds
   * exactly when the value RISC-V returns equals `*exp`, and x86 writes back
   * into `*exp` the very value RISC-V returns, while RISC-V leaves `*exp` alone.
   */
  lemma CompareExchangeCellsAgree(w: Width, xlen: nat, cell: nat, expected: nat, desired: int)
    requires RmwWidthOk(w, xlen)
    requires IsWord(w, cell) && IsWord(w, expected)
    ensures var rv := Rv.CompareExchangeStrong(w, xlen, cell, expected, desired, []);
            var x := X86.CompareExchangeStrong(w, cell, expected, desired);
            && rv.cell == x.cell
            && (x.success <==> rv.ret == expected)
            && x.expected == rv.ret
            && rv.expected == expected
  {
  }

  /**
   * A failing compare-exchange of a cell holding 5 against `*exp` = 3: the
   * RISC-V macro returns 5 and leaves `*exp` at 3, so a caller testing the
   * result as a flag sees "true"; x86-64 returns false and sets `*exp` to 5.
   */
  lemma CompareExchangeResultsDiverge(xlen: nat)
    ensures var rv := Rv.CompareExchangeStrong(W32, xlen, 5, 3, 4, []);
            rv.ret == 5 && rv.expected == 3 && rv.cell == 5
    ensures var x := X86.CompareExchangeStrong(W32, 5, 3, 4);
            !x.success && x.expected == 5 && x.cell == 5
  {
  }

  /** Exchange and fetch_add return the same value and leave the same cell on both back-ends. */
  lemma ExchangeAndFetchAddAgree(w: Width, xlen: nat, o: MemoryOrder, cell: nat, arg: int)
    requires RmwWidthOk(w, xlen)
    requires IsWord(w, cell)
    ensures Rv.ExchangeExplicit(w, xlen, o, cell, arg).ret == X86.Exchange(w, cell, arg).ret
    ensures Rv.ExchangeExplicit(w, xlen, o, cell, arg).cell == X86.Exchange(w, cell, arg).cell
    ensures Rv.FetchAddExplicit(w, xlen, o, cell, arg).ret == X86.FetchAdd(w, cell, arg).ret
    ensures Rv.FetchAddExplicit(w, xlen, o, cell, arg).cell == X86.FetchAdd(w, cell, arg).cell
  {
  }

  /*
   * Where they diverge: fetch_or, fetch_xor and fetch_and with `-arg`
   */

  /** The cell-type negation of `a` is `2^w - a`, or 0 when `a` is 0. */
  lemma NegOfConv(w: Width, a: int)
    ensures Neg(w, a) == if Conv(w, a) == 0 then 0 else Modulus(w) - Conv(w, a)
  {
    var m := Modulus(w);
    var c := Conv(w, a);
    var q := a / m;
    assert a == q * m + c;
    if c == 0 {
      assert -a == (-q) * m + 0;
      ModUnique(-a, -q, 0, m);
    } else {
      assert -a == (-q - 1) * m + (m - c);
      ModUnique(-a, -q - 1, m - c, m);
    }
  }

  /** An argument is its own negation in the cell type exactly when it is 0 or 2^(w-1). */
  lemma SelfNegating(w: Width, a: int)
    ensures Neg(w, a) == Conv(w, a) <==> Conv(w, a) == 0 || 2 * Conv(w, a) == Modulus(w)
  {
    NegOfConv(w, a);
  }

  /**
   * fetch_or of `arg` into a zero cell: RISC-V leaves `-arg`, x86 leaves
   * `arg`. The two agree on every cell exactly when `arg` is its own
   * negation, i.e. 0 or 2^(w-1) in the cell type.
   */
  lemma FetchOrAgreesIff(w: Width, xlen: nat, o: MemoryOrder, arg: int)
    requires RmwWidthOk(w, xlen)
    ensures Rv.FetchOrExplicit(w, xlen, o, 0, arg).cell == Neg(w, arg)
    ensures X86.FetchOr(w, 0, arg, []).cell == Conv(w, arg)
    ensures (forall cell: nat | IsWord(w, cell) ::
               Rv.FetchOrExplicit(w, xlen, o, cell, arg).cell == X86.FetchOr(w, cell, arg, []).cell)
        <==> Conv(w, arg) == 0 || 2 * Conv(w, arg) == Modulus(w)
  {
    var n, a := Neg(w, arg), Conv(w, arg);
    ZeroIdentity(n);
    ZeroIdentity(a);
    SelfNegating(w, arg);
    assert Rv.FetchOrExplicit(w, xlen, o, 0, arg).cell == n;
    assert X86.FetchOr(w, 0, arg, []).cell == a;
    if n == a {
      forall cell: nat | IsWord(w, cell)
        ensures Rv.FetchOrExplicit(w, xlen, o, cell, arg).cell == X86.FetchOr(w, cell, arg, []).cell
      {
      }
    }
  }

  /** The same for fetch_xor: on a zero cell RISC-V leaves `-arg` and x86 `arg`. */
  lemma FetchXorAgreesIff(w: Width, xlen: nat, o: MemoryOrder, arg: int)
    requires RmwWidthOk(w, xlen)
    ensures Rv.FetchXorExplicit(w, xlen, o, 0, arg).cell == Neg(w, arg)
    ensures X86.FetchXor(w, 0, arg, []).cell == Conv(w, arg)
    ensures (forall cell: nat | IsWord(w, cell) ::
               Rv.FetchXorExplicit(w, xlen, o, cell, arg).cell == X86.FetchXor(w, cell, arg, []).cell)
        <==> Conv(w, arg) == 0 || 2 * Conv(w, arg) == Modulus(w)
  {
    var n, a := Neg(w, arg), Conv(w, arg);
    ZeroIdentity(n);
    ZeroIdentity(a);
    SelfNegating(w, arg);
    assert Rv.FetchXorExplicit(w, xlen, o, 0, arg).cell == n;
    assert X86.FetchXor(w, 0, arg, []).cell == a;
    if n == a {
      forall cell: nat | IsWord(w, cell)
        ensures Rv.FetchXorExplicit(w, xlen, o, cell, arg).cell == X86.FetchXor(w, cell, arg, []).cell
      {
      }
    }
  }

  /** `fetch_or(0, 1)` on a 32-bit cell: RISC-V leaves 0xFFFFFFFF, x86 leaves 1. */
  lemma FetchOrOneDiverges(xlen: nat, o: MemoryOrder)
    ensures Rv.FetchOrExplicit(W32, xlen, o, 0, 1).cell == 0xFFFF_FFFF
    ensures X86.FetchOr(W32, 0, 1, []).cell == 1
  {
    assert Neg(W32, 1) == 0xFFFF_FFFF;
    ZeroIdentity(0xFFFF_FFFF);
    ZeroIdentity(1);
  }

  /** `fetch_and(2, 1)` on a 32-bit cell: RISC-V ANDs with 0xFFFFFFFF and keeps 2, x86 leaves 0. */
  lemma FetchAndOneDiverges(xlen: nat, o: MemoryOrder)
    ensures Rv.FetchAndExplicit(W32, xlen, o, 2, 1).cell == 2
    ensures X86.FetchAnd(W32, 2, 1, []).cell == 0
  {
    assert Neg(W32, 1) == 0xFFFF_FFFF;
    assert And(2, 0xFFFF_FFFF) == 2 * And(1, 0x7FFF_FFFF);
    assert And(1, 0x7FFF_FFFF) == 2 * And(0, 0x3FFF_FFFF) + 1;
    assert And(2, 1) == 2 * And(1, 0);
  }

  /*
   * The RISC-V operations as evidently intended
   */

  /** fetch_or / fetch_xor / fetch_and with `arg` itself handed to the AMO. */
  function FetchOrIntended(w: Width, xlen: nat, o: MemoryOrder, cell: nat, arg: int): (r: Rv.Effect)
    requires RmwWidthOk(w, xlen)
    requires IsWord(w, cell)
    ensures r.ret == cell && r.cell == Or(cell, Conv(w, arg))
    ensures r.code == [Amo(AmoOr, w, AmoAnnot(o), arg)]
  {
    Rv.AtomicOp(AmoOr, w, xlen, o, cell, arg)
  }

  function FetchXorIntended(w: Width, xlen: nat, o: MemoryOrder, cell: nat, arg: int): (r: Rv.Effect)
    requires RmwWidthOk(w, xlen)
    requires IsWord(w, cell)
    ensures r.ret == cell && r.cell == Xor(cell, Conv(w, arg))
    ensures r.code == [Amo(AmoXor, w, AmoAnnot(o), arg)]
  {
    Rv.AtomicOp(AmoXor, w, xlen, o, cell, arg)
  }

  function FetchAndIntended(w: Width, xlen: nat, o: MemoryOrder, cell: nat, arg: int): (r: Rv.Effect)
    requires RmwWidthOk(w, xlen)
    requires IsWord(w, cell)
    ensures r.ret == cell && r.cell == And(cell, Conv(w, arg))
    ensures r.code == [Amo(AmoAnd, w, AmoAnnot(o), arg)]
  {
    Rv.AtomicOp(AmoAnd, w, xlen, o, cell, arg)
  }

  /**
   * The intended RISC-V fetch_or / fetch_xor / fetch_and return the same
   * value and leave the same cell as the x86-64 CAS loop when it meets no
   * interference, for every cell, argument and order.
   */
  lemma IntendedLogicOpsAgree(w: Width, xlen: nat, o: MemoryOrder, cell: nat, arg: int)
    requires RmwWidthOk(w, xlen)
    requires IsWord(w, cell)
    ensures FetchOrIntended(w, xlen, o, cell, arg).ret == X86.FetchOr(w, cell, arg, []).ret
    ensures FetchOrIntended(w, xlen, o, cell, arg).cell == X86.FetchOr(w, cell, arg, []).cell
    ensures FetchXorIntended(w, xlen, o, cell, arg).ret == X86.FetchXor(w, cell, arg, []).ret
    ensures FetchXorIntended(w, xlen, o, cell, arg).cell == X86.FetchXor(w, cell, arg, []).cell
    ensures FetchAndIntended(w, xlen, o, cell, arg).ret == X86.FetchAnd(w, cell, arg, []).ret
    ensures FetchAndIntended(w, xlen, o, cell, arg).cell == X86.FetchAnd(w, cell, arg, []).cell
  {
  }

  /**
   * A C11 compare-exchange (section 7.17.7.4) on top of the RISC-V LR/SC
   * loop: it reports success as a flag and writes the value read into
   * `*exp`, so `*exp` is unchanged on success and refreshed on failure.
   */
  function CompareExchangeC11(w: Width, xlen: nat, succ: MemoryOrder, fail: MemoryOrder,
                              cell: nat, expected: nat, desired: int, writes: seq<int>): (r: X86.CasResult)
    requires RmwWidthOk(w, xlen)
    requires IsWord(w, cell) && IsWord(w, expected)
    ensures r.success <==> r.expected == expected
    ensures r.cell == (if r.success then Conv(w, desired) else r.expected)
    ensures writes == [] ==> (r.success <==> cell == expected) && r.expected == cell
  {
    var e := Rv.CompareExchangeStrongExplicit(w, xlen, succ, fail, cell, expected, desired, writes);
    X86.CasResult(e.ret == expected, e.cell, e.ret)
  }

  /** Without interference the C11 RISC-V compare-exchange is the x86-64 one, field for field. */
  lemma CompareExchangeC11Agrees(w: Width, xlen: nat, succ: MemoryOrder, fail: MemoryOrder,
                                 cell: nat, expected: nat, desired: int)
    requires RmwWidthOk(w, xlen)
    requires IsWord(w, cell) && IsWord(w, expected)
    ensures CompareExchangeC11(w, xlen, succ, fail, cell, expected, desired, [])
         == X86.CompareExchangeStrong(w, cell, expected, desired)
  {
  }
}

=== FILE: harness.dfy ===
/**
 * The counter benchmark of `main.cpp`: `NUM_THREADS` workers each perform
 * `ITERATIONS` atomic increments of a shared `uint32_t`, either with
 * `atomic_fetch_add` or with a read / compare-exchange retry loop. Threads
 * are an interleaving: a schedule names, step by step, which worker runs
 * its next atomic step, and every macro call is one indivisible step.
 *
 * The four local helpers (`atomic_add_riscv`, `atomic_cas_riscv`,
 * `atomic_add_x86`, `atomic_cas_x86`) are modelled too; the workers call
 * the header macros, not the helpers.
 */
module Harness {
  import opened Words
  import opened RiscvIsa
  import Rv = RiscvAtomics
  import X86 = X86Atomics

  /** `NUM_THREADS` and `ITERATIONS`. */
  const NumThreads: nat := 2
  const Iterations: nat := 1_000_000

  /** Register width of the RISC-V target; 32-bit operations are legal on any. */
  const Xlen: nat := 64

  datatype Backend = RiscV | X86

  /*
   * The local helpers, on a 32-bit cell
   */

  /** `atomic_add_riscv`: one plain `amoadd.w`; returns the old value. */
  function AtomicAddRiscv(cell: nat, val: nat): (r: X86.Rmw)
    requires IsWord(W32, cell) && IsWord(W32, val)
    ensures r.ret == cell && r.cell == Conv(W32, cell + val)
  {
    Rv.ExecSingle(Amo(AmoAdd, W32, Plain, val), Hart(cell, 0), []);
    var h := Exec([Amo(AmoAdd, W32, Plain, val)], Hart(cell, 0), []);
    X86.Rmw(h.rd, h.mem)
  }

  /**
   * `atomic_cas_riscv`: a plain `lr.w` / `sc.w` loop; returns the value the
   * last `lr.w` read, and the cell takes `desired` exactly when that value
   * was `expected`. Uncontended, that value is the cell.
   */
  function AtomicCasRiscv(cell: nat, expected: nat, desired: nat, writes: seq<int>): (r: X86.Rmw)
    requires IsWord(W32, cell) && IsWord(W32, expected) && IsWord(W32, desired)
    ensures r.cell == (if r.ret == expected then desired else r.ret)
    ensures r.ret == cell || exists k :: 0 <= k < |writes| && r.ret == Conv(W32, writes[k])
    ensures writes == [] ==> r.ret == cell
  {
    var i := CasLoop(W32, Plain, Plain, expected, desired);
    Rv.ExecSingle(i, Hart(cell, 0), writes);
    var h := Exec([i], Hart(cell, 0), writes);
    X86.Rmw(h.rd, h.mem)
  }

  /** `atomic_add_x86`: `lock xaddl`; returns the old value. */
  function AtomicAddX86(cell: nat, val: nat): (r: X86.Rmw)
    requires IsWord(W32, cell) && IsWord(W32, val)
    ensures r.ret == cell && r.cell == Conv(W32, cell + val)
  {
    var (reg, mem) := X86.LockXadd(W32, val, cell);
    X86.Rmw(reg, mem)
  }

  /**
   * `atomic_cas_x86`: `lock cmpxchgl` with `expected` in the accumulator;
   * returns the accumulator, which is the old cell whether or not it matched.
   */
  function AtomicCasX86(cell: nat, expected: nat, desired: nat): (r: X86.Rmw)
    requires IsWord(W32, cell) && IsWord(W32, expected) && IsWord(W32, desired)
    ensures r.ret == cell
    ensures r.cell == (if cell == expected then desired else cell)
  {
    var c := X86.LockCmpxchg(expected, cell, desired);
    X86.Rmw(c.acc, c.mem)
  }

  /** Uncontended, the RISC-V and x86-64 helpers return the same value and leave the same cell. */
  lemma HelpersAgree(cell: nat, val: nat, expected: nat, desired: nat)
    requires IsWord(W32, cell) && IsWord(W32, val) && IsWord(W32, expected) && IsWord(W32, desired)
    ensures AtomicAddRiscv(cell, val) == AtomicAddX86(cell, val)
    ensures AtomicCasRiscv(cell, expected, desired, []) == AtomicCasX86(cell, expected, desired)
  {
  }

  /*
   * Sums of per-thread counts
   */

  function Sum(s: seq<nat>): nat
  {
    if s == [] then 0 else s[0] + Sum(s[1..])
  }

  lemma {:induction false} SumUpdate(s: seq<nat>, i: nat, v: nat)
    requires i < |s|
    ensures Sum(s[i := v]) == Sum(s) - s[i] + v
  {
    if i > 0 {
      assert s[i := v][1..] == s[1..][i - 1 := v];
      SumUpdate(s[1..], i - 1, v);
    }
  }

  predicate AllAtMost(s: seq<nat>, k: nat)
  {
    forall i | 0 <= i < |s| :: s[i] <= k
  }

  lemma {:induction false} SumBound(s: seq<nat>, k: nat)
    requires AllAtMost(s, k)
    ensures Sum(s) <= |s| * k
    ensures Sum(s) == |s| * k <==> AllAre(s, k)
  {
    if s != [] {
      var tail := s[1..];
      assert AllAtMost(tail, k) by {
        assert forall i | 0 <= i < |tail| :: tail[i] == s[i + 1];
      }
      SumBound(tail, k);
      assert |s| * k == k + |tail| * k;
      if AllAre(s, k) {
        assert forall i | 0 <= i < |tail| :: tail[i] == s[i + 1];
      } else if s[0] == k {
        var i :| 0 <= i < |s| && s[i] != k;
        assert tail[i - 1] != k;
      }
    }
  }

  predicate AllAre(s: seq<nat>, k: nat)
  {
    forall i | 0 <= i < |s| :: s[i] == k
  }

  /*
   * thread_func_add: ITERATIONS calls of atomic_fetch_add(&g_var_add, 1)
   */

  /** `g_var_add` and, per worker, the iterations it has completed. */
  datatype AddState = AddState(counter: nat, done: seq<nat>)

  function AddInit(n: nat): (s: AddState)
    ensures |s.done| == n && s.counter == 0 && Sum(s.done) == 0
  {
    var s := AddState(0, seq(n, _ => 0));
    assert Sum(s.done) == 0 by {
      SumBound(s.done, 0);
    }
    s
  }

  /** `atomic_fetch_add(&g_var_add, 1)` on the chosen back-end. */
  function FetchAddOne(b: Backend, counter: nat): (c: nat)
    requires IsWord(W32, counter)
    ensures c == Conv(W32, counter + 1)
  {
    match b
    case RiscV => Rv.FetchAdd(W32, Xlen, counter, 1).cell
    case X86 => X86.FetchAdd(W32, counter, 1).cell
  }

  /**
   * Worker `t` runs one loop iteration. A schedule entry for a worker that
   * does not exist or has finished its loop does nothing.
   */
  function AddStep(b: Backend, s: AddState, t: nat): (r: AddState)
    requires IsWord(W32, s.counter)
    ensures IsWord(W32, r.counter) && |r.done| == |s.done|
    ensures t < |s.done| && s.done[t] < Iterations ==>
              r.counter == Conv(W32, s.counter + 1) && r.done == s.done[t := s.done[t] + 1]
    ensures !(t < |s.done| && s.done[t] < Iterations) ==> r == s
  {
    if t < |s.done| && s.done[t] < Iterations then
      AddState(FetchAddOne(b, s.counter), s.done[t := s.done[t] + 1])
    else
      s
  }

  function AddRun(b: Backend, s: AddState, schedule: seq<nat>): (r: AddState)
    requires IsWord(W32, s.counter)
    ensures IsWord(W32, r.counter) && |r.done| == |s.done|
    decreases |schedule|
  {
    if schedule == [] then s else AddRun(b, AddStep(b, s, schedule[0]), schedule[1..])
  }

  /** The counter equals the increments completed, and no worker exceeds its loop. */
  predicate AddInv(s: AddState)
  {
    && IsWord(W32, s.counter)
    && s.counter == Sum(s.done)
    && AllAtMost(s.done, Iterations)
    && |s.done| * Iterations < Modulus(W32)
  }

  lemma AddStepKeepsInv(b: Backend, s: AddState, t: nat)
    requires AddInv(s)
    ensures AddInv(AddStep(b, s, t))
  {
    if t < |s.done| && s.done[t] < Iterations {
      SumBound(s.done, Iterations);
      SumUpdate(s.done, t, s.done[t] + 1);
      SumBound(s.done[t := s.done[t] + 1], Iterations);
    }
  }

  /** Under every schedule, on either back-end, the invariant holds throughout. */
  lemma {:induction false} AddRunKeepsInv(b: Backend, s: AddState, schedule: seq<nat>)
    requires AddInv(s)
    ensures AddInv(AddRun(b, s, schedule))
    decreases |schedule|
  {
    if schedule != [] {
      AddStepKeepsInv(b, s, schedule[0]);
      AddRunKeepsInv(b, AddStep(b, s, schedule[0]), schedule[1..]);
    }
  }

  predicate AllFinished(done: seq<nat>)
  {
    AllAre(done, Iterations)
  }

  /**
   * Whatever the interleaving, `g_var_add` never exceeds 2,000,000 and is
   * exactly 2,000,000 once both workers have finished their loops: the
   * value `main` prints.
   */
  lemma AddFinalValue(b: Backend, schedule: seq<nat>)
    ensures var s := AddRun(b, AddInit(NumThreads), schedule);
            && s.counter == Sum(s.done) <= NumThreads * Iterations
            && (s.counter == 2_000_000 <==> AllFinished(s.done))
  {
    var s0 := AddInit(NumThreads);
    AddRunKeepsInv(b, s0, schedule);
    var s := AddRun(b, s0, schedule);
    SumBound(s.done, Iterations);
  }

  /** Running the workers round-robin, one iteration each per round, finishes every loop. */
  method AddRoundRobin(b: Backend, n: nat) returns (s: AddState, schedule: seq<nat>)
    requires n * Iterations < Modulus(W32)
    ensures s == AddRun(b, AddInit(n), schedule)
    ensures AllFinished(s.done) && |s.done| == n
    ensures s.counter == n * Iterations
  {
    s := AddInit(n);
    schedule := [];
    var i := 0;
    while i < Iterations
      invariant 0 <= i <= Iterations
      invariant s == AddRun(b, AddInit(n), schedule)
      invariant |s.done| == n
      invariant forall k | 0 <= k < n :: s.done[k] == i
      invariant AddInv(s)
    {
      var t := 0;
      while t < n
        invariant 0 <= t <= n
        invariant s == AddRun(b, AddInit(n), schedule)
        invariant |s.done| == n
        invariant forall k | 0 <= k < t :: s.done[k] == i + 1
        invariant forall k | t <= k < n :: s.done[k] == i
        invariant AddInv(s)
      {
        AddStepKeepsInv(b, s, t);
        AddRunSnoc(b, AddInit(n), schedule, t);
        s := AddStep(b, s, t);
        schedule := schedule + [t];
        t := t + 1;
      }
      i := i + 1;
    }
    SumBound(s.done, Iterations);
  }

  lemma {:induction false} AddRunSnoc(b: Backend, s: AddState, schedule: seq<nat>, t: nat)
    requires IsWord(W32, s.counter)
    ensures AddRun(b, s, schedule + [t]) == AddStep(b, AddRun(b, s, schedule), t)
    decreases |schedule|
  {
    if schedule == [] {
      assert ([] + [t])[1..] == [];
    } else {
      assert (schedule + [t])[1..] == schedule[1..] + [t];
      AddRunSnoc(b, AddStep(b, s, schedule[0]), schedule[1..], t);
    }
  }

  /*
   * thread_func_cas: ITERATIONS times { do expected = g_var_cas;
   *   while (atomic_compare_exchange_strong(&g_var_cas, &expected, expected + 1) <test>); }
   */

  /** The exit test of the retry loop and the compare-exchange it applies it to. */
  datatype Variant =
    | X86Flag          // x86-64 header: the bool result `!= true`
    | RiscvAsWritten   // RISC-V header (returns the old value) with the same `!= true`
    | RiscvIntended    // RISC-V header with the commented-out test `!= expected`

  /** About to read `g_var_cas` into `expected`, or about to compare-exchange. */
  datatype Pc = ReadCell | TryCas

  datatype Worker = Worker(pc: Pc, expected: nat, done: nat)

  /** `g_var_cas` and the workers. */
  datatype CasState = CasState(counter: nat, workers: seq<Worker>)

  predicate CasValid(s: CasState)
  {
    IsWord(W32, s.counter) && forall i | 0 <= i < |s.workers| :: IsWord(W32, s.workers[i].expected)
  }

  function CasInit(n: nat): (s: CasState)
    ensures CasValid(s) && |s.workers| == n
  {
    CasState(0, seq(n, _ => Worker(ReadCell, 0, 0)))
  }

  /**
   * One compare-exchange of `expected` for `expected + 1` (wrapped to 32
   * bits): whether the loop exits, and the cell afterwards.
   */
  function CasAttempt(v: Variant, counter: nat, expected: nat): (r: (bool, nat))
    requires IsWord(W32, counter) && IsWord(W32, expected)
    ensures r.1 == (if counter == expected then Conv(W32, expected + 1) else counter)
    ensures v == X86Flag || v == RiscvIntended ==> (r.0 <==> counter == expected)
    ensures v == RiscvAsWritten ==> (r.0 <==> counter == 1)
  {
    match v
    case X86Flag =>
      var c := X86.CompareExchangeStrong(W32, counter, expected, expected + 1);
      (c.success == true, c.cell)
    case RiscvAsWritten =>
      var c := Rv.CompareExchangeStrong(W32, Xlen, counter, expected, expected + 1, []);
      (c.ret == 1, c.cell)
    case RiscvIntended =>
      var c := Rv.CompareExchangeStrong(W32, Xlen, counter, expected, expected + 1, []);
      (c.ret == expected, c.cell)
  }

  /**
   * Worker `t` takes its next atomic step: a read loads `g_var_cas` into its
   * `expected`; a compare-exchange applies `CasAttempt` and completes an
   * iteration exactly when the loop exits. A missing or finished worker does
   * nothing, and no other worker ever changes.
   */
  function CasStep(v: Variant, s: CasState, t: nat): (r: CasState)
    requires CasValid(s)
    ensures CasValid(r) && |r.workers| == |s.workers|
    ensures t >= |s.workers| || s.workers[t].done >= Iterations ==> r == s
    ensures t < |s.workers| && s.workers[t].done < Iterations && s.workers[t].pc == ReadCell ==>
              r.counter == s.counter
              && r.workers == s.workers[t := Worker(TryCas, s.counter, s.workers[t].done)]
    ensures t < |s.workers| && s.workers[t].done < Iterations && s.workers[t].pc == TryCas ==>
              var w := s.workers[t];
              var a := CasAttempt(v, s.counter, w.expected);
              && r.counter == a.1
              && r.workers == s.workers[t := Worker(ReadCell, w.expected, if a.0 then w.done + 1 else w.done)]
  {
    if t >= |s.workers| || s.workers[t].done >= Iterations then s
    else
      var w := s.workers[t];
      match w.pc
      case ReadCell =>
        CasState(s.counter, s.workers[t := Worker(TryCas, s.counter, w.done)])
      case TryCas =>
        var (exit, cell) := CasAttempt(v, s.counter, w.expected);
        CasState(cell, s.workers[t := Worker(ReadCell, w.expected, if exit then w.done + 1 else w.done)])
  }

  function CasRun(v: Variant, s: CasState, schedule: seq<nat>): (r: CasState)
    requires CasValid(s)
    ensures CasValid(r) && |r.workers| == |s.workers|
    decreases |schedule|
  {
    if schedule == [] then s else CasRun(v, CasStep(v, s, schedule[0]), schedule[1..])
  }

  function Dones(ws: seq<Worker>): (d: seq<nat>)
    ensures |d| == |ws| && forall i | 0 <= i < |ws| :: d[i] == ws[i].done
  {
    seq(|ws|, i requires 0 <= i < |ws| => ws[i].done)
  }

  /** `g_var_cas` equals the loop iterations completed, and no worker exceeds its loop. */
  predicate CasInv(s: CasState)
  {
    && CasValid(s)
    && s.counter == Sum(Dones(s.workers))
    && AllAtMost(Dones(s.workers), Iterations)
    && |s.workers| * Iterations < Modulus(W32)
  }

  lemma CasStepKeepsInv(v: Variant, s: CasState, t: nat)
    requires v == X86Flag || v == RiscvIntended
    requires CasInv(s)
    ensures CasInv(CasStep(v, s, t))
  {
    if t < |s.workers| && s.workers[t].done < Iterations {
      var w := s.workers[t];
      var d := Dones(s.workers);
      var r := CasStep(v, s, t);
      SumBound(d, Iterations);
      if w.pc == ReadCell {
        assert Dones(r.workers) == d;
      } else if s.counter == w.expected {
        assert Dones(r.workers) == d[t := w.done + 1];
        SumUpdate(d, t, w.done + 1);
      } else {
        assert Dones(r.workers) == d;
      }
    }
  }

  /** With a correct exit test, the invariant holds under every schedule. */
  lemma {:induction false} CasRunKeepsInv(v: Variant, s: CasState, schedule: seq<nat>)
    requires v == X86Flag || v == RiscvIntended
    requires CasInv(s)
    ensures CasInv(CasRun(v, s, schedule))
    decreases |schedule|
  {
    if schedule != [] {
      CasStepKeepsInv(v, s, schedule[0]);
      CasRunKeepsInv(v, CasStep(v, s, schedule[0]), schedule[1..]);
    }
  }

  /**
   * With the x86-64 header, or with the RISC-V header and the `!= expected`
   * test, `g_var_cas` ends at 2,000,000 exactly when both workers finish.
   */
  lemma CasFinalValue(v: Variant, schedule: seq<nat>)
    requires v == X86Flag || v == RiscvIntended
    ensures var s := CasRun(v, CasInit(NumThreads), schedule);
            && s.counter == Sum(Dones(s.workers)) <= NumThreads * Iterations
            && (s.counter == 2_000_000 <==> AllFinished(Dones(s.workers)))
  {
    var s0 := CasInit(NumThreads);
    assert Sum(Dones(s0.workers)) == 0 by {
      SumBound(Dones(s0.workers), 0);
    }
    CasRunKeepsInv(v, s0, schedule);
    var s := CasRun(v, s0, schedule);
    SumBound(Dones(s.workers), Iterations);
  }

  /**
   * With the RISC-V header and the `!= true` test, one worker alone breaks
   * the invariant: it reads 0, its compare-exchange succeeds and returns 0,
   * which is not 1, so it retries, reads 1, succeeds again and exits. One
   * completed iteration has added 2.
   */
  lemma RiscvAsWrittenDoubleCounts()
    ensures var s := CasRun(RiscvAsWritten, CasInit(NumThreads), [0, 0]);
            s.counter == 1 && Sum(Dones(s.workers)) == 0
    ensures var s := CasRun(RiscvAsWritten, CasInit(NumThreads), [0, 0, 0, 0]);
            s.counter == 2 && Sum(Dones(s.workers)) == 1 && !CasInv(s)
  {
    var s0 := CasInit(NumThreads);
    var s1 := CasStep(RiscvAsWritten, s0, 0);
    var s2 := CasStep(RiscvAsWritten, s1, 0);
    var s3 := CasStep(RiscvAsWritten, s2, 0);
    var s4 := CasStep(RiscvAsWritten, s3, 0);
    assert s2.counter == 1 && s2.workers[0].done == 0 && s2.workers[1].done == 0;
    assert s4.counter == 2 && s4.workers[0].done == 1 && s4.workers[1].done == 0;
    assert [0, 0][1..] == [0] && [0, 0, 0, 0][1..] == [0, 0, 0];
    assert [0, 0, 0][1..] == [0, 0] && [0][1..] == [];
    assert CasRun(RiscvAsWritten, s0, [0, 0]) == s2;
    assert CasRun(RiscvAsWritten, s0, [0, 0, 0, 0]) == s4;
    assert Dones(s2.workers) == [0, 0];
    assert Dones(s4.workers) == [1, 0];
  }
}

=== FILE: orders.dfy ===
/**
 * The C11 memory orders (ISO/IEC 9899:2011 section 7.17.3) as the atomic
 * macros receive them, and the ordering obligations each one carries.
 *
 * The header switches on GCC's `__ATOMIC_*` codes; every switch ends in a
 * `default:` branch shared with `__ATOMIC_RELAXED`, so an order a table does
 * not list is treated as relaxed.
 */
module Orders {

  datatype MemoryOrder = Relaxed | Consume | Acquire | Release | AcqRel | SeqCst

  /** The header's "promote to acquire for now": consume is served as acquire. */
  function Promote(o: MemoryOrder): MemoryOrder
  {
    if o == Consume then Acquire else o
  }

  /** Orders whose read side is an acquire operation (C11 section 7.17.3, paragraph 2). */
  predicate IsAcquire(o: MemoryOrder)
  {
    o == Acquire || o == AcqRel || o == SeqCst
  }

  /** Orders whose write side is a release operation (C11 section 7.17.3, paragraph 2). */
  predicate IsRelease(o: MemoryOrder)
  {
    o == Release || o == AcqRel || o == SeqCst
  }
}

=== FILE: riscv_atomics.dfy ===
/**
 * The RISC-V half of `stdatomic_asm.h`: each macro selects its code
 * (`RiscvSelect`) and that code runs on the cell (`RiscvIsa.Exec`). The
 * contracts state what the caller observes: the value returned and the cell
 * afterwards, as the code is written, including where it departs from C11
 * (the CAS returns the loaded value and never writes `*exp`; fetch_or, xor
 * and and hand `-arg` to the AMO).
 *
 * `__builtin_unreachable` on an unsupported size becomes a `requires`.
 */
module RiscvAtomics {
  import opened Orders
  import opened Words
  import opened RiscvIsa
  import opened RiscvSelect

  /** The code a macro emits, the value it returns and the cell afterwards. */
  datatype Effect = Effect(code: seq<Instr>, ret: nat, cell: nat)

  /** A compare-exchange also reports the expected-value slot `*exp` afterwards. */
  datatype CasEffect = CasEffect(code: seq<Instr>, ret: nat, cell: nat, expected: nat)

  function Run(code: seq<Instr>, cell: nat, writes: seq<int>): Effect
  {
    var h := Exec(code, Hart(cell, 0), writes);
    Effect(code, h.rd, h.mem)
  }

  lemma ExecLoadCode(w: Width, o: MemoryOrder, h: Hart)
    ensures Exec(LoadCode(w, o), h, []) == Hart(h.mem, h.mem)
  {
    var c := LoadCode(w, o);
    var loaded := Hart(h.mem, h.mem);
    if o == SeqCst {
      assert c[1..] == [Load(w), Fence(R, RW)] && c[1..][1..] == [Fence(R, RW)];
      assert Exec(c[1..][1..], loaded, []) == loaded;
    } else if o == Acquire {
      assert c[1..] == [Fence(R, RW)];
      assert Exec(c[1..], loaded, []) == loaded;
    }
  }

  lemma ExecStoreCode(w: Width, o: MemoryOrder, v: int, h: Hart)
    ensures Exec(StoreCode(w, o, v), h, []) == Hart(Conv(w, v), h.rd)
  {
    var c := StoreCode(w, o, v);
    var stored := Hart(Conv(w, v), h.rd);
    if o == Release || o == SeqCst {
      assert c[1..] == [Store(w, v)];
      ExecSingle(Store(w, v), h, []);
    } else {
      ExecSingle(Store(w, v), h, []);
    }
  }

  lemma ExecSingle(i: Instr, h: Hart, writes: seq<int>)
    ensures Exec([i], h, writes) == Step(i, h, writes)
  {
    assert [i][1..] == [];
  }

  /*
   * atomic_load
   */

  /** A load of any order returns the cell and leaves it as it was. */
  function AtomicLoadExplicit(w: Width, xlen: nat, o: MemoryOrder, cell: nat): (r: Effect)
    requires LoadStoreWidthOk(w, xlen)
    requires IsWord(w, cell)
    ensures r.code == LoadCode(w, o)
    ensures r.ret == cell && r.cell == cell
    ensures AllEncodable(r.code, xlen)
  {
    ExecLoadCode(w, o, Hart(cell, 0));
    WidthSwitchMatchesIsa(w, xlen, o, AmoSwap, 0, 0);
    Run(LoadCode(w, o), cell, [])
  }

  /** `atomic_load` is the seq_cst load: full fence before, acquire fence after. */
  function AtomicLoad(w: Width, xlen: nat, cell: nat): (r: Effect)
    requires LoadStoreWidthOk(w, xlen)
    requires IsWord(w, cell)
    ensures r.code == [Fence(RW, RW), Load(w), Fence(R, RW)]
    ensures r.ret == cell && r.cell == cell
  {
    AtomicLoadExplicit(w, xlen, SeqCst, cell)
  }

  /*
   * atomic_store
   */

  /** A store of any order leaves the value, converted to the cell type, in the cell. */
  function AtomicStoreExplicit(w: Width, xlen: nat, o: MemoryOrder, cell: nat, value: int): (r: Effect)
    requires LoadStoreWidthOk(w, xlen)
    requires IsWord(w, cell)
    ensures r.code == StoreCode(w, o, value)
    ensures r.cell == Conv(w, value)
    ensures AllEncodable(r.code, xlen)
  {
    ExecStoreCode(w, o, value, Hart(cell, 0));
    WidthSwitchMatchesIsa(w, xlen, o, AmoSwap, value, 0);
    Run(StoreCode(w, o, value), cell, [])
  }

  /** `atomic_store` is the seq_cst store: `fence rw,w` then the store. */
  function AtomicStore(w: Width, xlen: nat, cell: nat, value: int): (r: Effect)
    requires LoadStoreWidthOk(w, xlen)
    requires IsWord(w, cell)
    ensures r.code == [Fence(RW, W), Store(w, value)]
    ensures r.cell == Conv(w, value)
  {
    AtomicStoreExplicit(w, xlen, SeqCst, cell, value)
  }

  /*
   * atomic_compare_exchange
   */

  /**
   * `__atomic_cmpxchg_strong`. The failure order is never consulted. The
   * result is the value the last `lr` read: the cell becomes `desired`
   * exactly when that value equals `*exp`, and is otherwise the value read.
   * Without interference that value is the cell itself. `*exp` is only read.
   */
  function CompareExchangeStrongExplicit(w: Width, xlen: nat, succ: MemoryOrder, fail: MemoryOrder,
                                         cell: nat, expected: nat, desired: int, writes: seq<int>): (r: CasEffect)
    requires RmwWidthOk(w, xlen)
    requires IsWord(w, cell) && IsWord(w, expected)
    ensures r.cell == (if r.ret == expected then Conv(w, desired) else r.ret)
    ensures r.ret == cell || exists k :: 0 <= k < |writes| && r.ret == Conv(w, writes[k])
    ensures writes == [] ==> r.ret == cell
    ensures r.expected == expected
    ensures r.code == CasCode(w, succ, expected, desired)
    ensures AllEncodable(r.code, xlen)
  {
    var code := CasCode(w, succ, expected, desired);
    var e := Run(code, cell, writes);
    ExecSingle(code[0], Hart(cell, 0), writes);
    CasEffect(code, e.ret, e.cell, expected)
  }

  /** `atomic_compare_exchange_strong` uses seq_cst: `lr.aqrl` and `sc.rl`. */
  function CompareExchangeStrong(w: Width, xlen: nat, cell: nat, expected: nat, desired: int,
                                 writes: seq<int>): (r: CasEffect)
    requires RmwWidthOk(w, xlen)
    requires IsWord(w, cell) && IsWord(w, expected)
    ensures r.code == [CasLoop(w, AqRl, Rl, expected, desired)]
    ensures r.expected == expected
    ensures r.cell == (if r.ret == expected then Conv(w, desired) else r.ret)
    ensures r.ret == cell || exists k :: 0 <= k < |writes| && r.ret == Conv(w, writes[k])
    ensures writes == [] ==> r.ret == cell && r.cell == (if cell == expected then Conv(w, desired) else cell)
  {
    CompareExchangeStrongExplicit(w, xlen, SeqCst, SeqCst, cell, expected, desired, writes)
  }

  /** The weak form is the strong form, and its failure order is ignored. */
  function CompareExchangeWeakExplicit(w: Width, xlen: nat, succ: MemoryOrder, fail: MemoryOrder,
                                       cell: nat, expected: nat, desired: int, writes: seq<int>): (r: CasEffect)
    requires RmwWidthOk(w, xlen)
    requires IsWord(w, cell) && IsWord(w, expected)
    ensures r == CompareExchangeStrongExplicit(w, xlen, succ, Relaxed, cell, expected, desired, writes)
  {
    CompareExchangeStrongExplicit(w, xlen, succ, fail, cell, expected, desired, writes)
  }

  /** `atomic_compare_exchange_weak` is `atomic_compare_exchange_strong`. */
  function CompareExchangeWeak(w: Width, xlen: nat, cell: nat, expected: nat, desired: int,
                               writes: seq<int>): (r: CasEffect)
    requires RmwWidthOk(w, xlen)
    requires IsWord(w, cell) && IsWord(w, expected)
    ensures r.code == [CasLoop(w, AqRl, Rl, expected, desired)]
    ensures r == CompareExchangeStrong(w, xlen, cell, expected, desired, writes)
  {
    CompareExchangeStrongExplicit(w, xlen, SeqCst, SeqCst, cell, expected, desired, writes)
  }

  /*
   * atomic_op template: one AMO, whatever the order
   */

  /** `__atomic_op`: the AMO returns the old cell and writes `op(old, arg)` back. */
  function AtomicOp(op: AmoOp, w: Width, xlen: nat, o: MemoryOrder, cell: nat, arg: int): (r: Effect)
    requires RmwWidthOk(w, xlen)
    requires IsWord(w, cell)
    ensures r.ret == cell
    ensures r.cell == AmoValue(op, w, cell, Conv(w, arg))
    ensures r.code == [Amo(op, w, AmoAnnot(o), arg)] && AllEncodable(r.code, xlen)
  {
    var code := AmoCode(op, w, o, arg);
    ExecSingle(code[0], Hart(cell, 0), []);
    Run(code, cell, [])
  }

  /** Exchange returns the old value and leaves the argument in the cell. */
  function ExchangeExplicit(w: Width, xlen: nat, o: MemoryOrder, cell: nat, arg: int): (r: Effect)
    requires RmwWidthOk(w, xlen)
    requires IsWord(w, cell)
    ensures r.ret == cell && r.cell == Conv(w, arg)
    ensures r.code == AmoCode(AmoSwap, w, o, arg)
  {
    AtomicOp(AmoSwap, w, xlen, o, cell, arg)
  }

  /** fetch_add returns the old value and leaves (old + arg) mod 2^w. */
  function FetchAddExplicit(w: Width, xlen: nat, o: MemoryOrder, cell: nat, arg: int): (r: Effect)
    requires RmwWidthOk(w, xlen)
    requires IsWord(w, cell)
    ensures r.ret == cell && r.cell == Conv(w, cell + arg)
    ensures r.code == AmoCode(AmoAdd, w, o, arg)
  {
    ConvAdd(w, cell, arg);
    AtomicOp(AmoAdd, w, xlen, o, cell, arg)
  }

  /** fetch_sub is `amoadd` of `-arg`: it leaves (old - arg) mod 2^w. */
  function FetchSubExplicit(w: Width, xlen: nat, o: MemoryOrder, cell: nat, arg: int): (r: Effect)
    requires RmwWidthOk(w, xlen)
    requires IsWord(w, cell)
    ensures r.ret == cell && r.cell == Conv(w, cell - arg)
    ensures r.code == AmoCode(AmoAdd, w, o, -arg)
  {
    ConvAdd(w, cell, -arg);
    AtomicOp(AmoAdd, w, xlen, o, cell, -arg)
  }

  /** fetch_or as written: `amoor` of `-arg`, so the cell gets old | (-arg mod 2^w). */
  function FetchOrExplicit(w: Width, xlen: nat, o: MemoryOrder, cell: nat, arg: int): (r: Effect)
    requires RmwWidthOk(w, xlen)
    requires IsWord(w, cell)
    ensures r.ret == cell && r.cell == Or(cell, Neg(w, arg))
    ensures r.code == AmoCode(AmoOr, w, o, -arg)
  {
    AtomicOp(AmoOr, w, xlen, o, cell, -arg)
  }

  /** fetch_xor as written: `amoxor` of `-arg`. */
  function FetchXorExplicit(w: Width, xlen: nat, o: MemoryOrder, cell: nat, arg: int): (r: Effect)
    requires RmwWidthOk(w, xlen)
    requires IsWord(w, cell)
    ensures r.ret == cell && r.cell == Xor(cell, Neg(w, arg))
    ensures r.code == AmoCode(AmoXor, w, o, -arg)
  {
    AtomicOp(AmoXor, w, xlen, o, cell, -arg)
  }

  /** fetch_and as written: `amoand` of `-arg`. */
  function FetchAndExplicit(w: Width, xlen: nat, o: MemoryOrder, cell: nat, arg: int): (r: Effect)
    requires RmwWidthOk(w, xlen)
    requires IsWord(w, cell)
    ensures r.ret == cell && r.cell == And(cell, Neg(w, arg))
    ensures r.code == AmoCode(AmoAnd, w, o, -arg)
  {
    AtomicOp(AmoAnd, w, xlen, o, cell, -arg)
  }

  /*
   * Forms without an order: seq_cst, hence one `.aqrl` AMO
   */

  function Exchange(w: Width, xlen: nat, cell: nat, arg: int): (r: Effect)
    requires RmwWidthOk(w, xlen)
    requires IsWord(w, cell)
    ensures r.code == [Amo(AmoSwap, w, AqRl, arg)]
    ensures r.ret == cell && r.cell == Conv(w, arg)
  {
    ExchangeExplicit(w, xlen, SeqCst, cell, arg)
  }

  function FetchAdd(w: Width, xlen: nat, cell: nat, arg: int): (r: Effect)
    requires RmwWidthOk(w, xlen)
    requires IsWord(w, cell)
    ensures r.code == [Amo(AmoAdd, w, AqRl, arg)]
    ensures r.ret == cell && r.cell == Conv(w, cell + arg)
  {
    FetchAddExplicit(w, xlen, SeqCst, cell, arg)
  }

  function FetchSub(w: Width, xlen: nat, cell: nat, arg: int): (r: Effect)
    requires RmwWidthOk(w, xlen)
    requires IsWord(w, cell)
    ensures r.code == [Amo(AmoAdd, w, AqRl, -arg)]
    ensures r.ret == cell && r.cell == Conv(w, cell - arg)
  {
    FetchSubExplicit(w, xlen, SeqCst, cell, arg)
  }

  function FetchOr(w: Width, xlen: nat, cell: nat, arg: int): (r: Effect)
    requires RmwWidthOk(w, xlen)
    requires IsWord(w, cell)
    ensures r.code == [Amo(AmoOr, w, AqRl, -arg)]
    ensures r.ret == cell && r.cell == Or(cell, Neg(w, arg))
  {
    FetchOrExplicit(w, xlen, SeqCst, cell, arg)
  }

  function FetchXor(w: Width, xlen: nat, cell: nat, arg: int): (r: Effect)
    requires RmwWidthOk(w, xlen)
    requires IsWord(w, cell)
    ensures r.code == [Amo(AmoXor, w, AqRl, -arg)]
    ensures r.ret == cell && r.cell == Xor(cell, Neg(w, arg))
  {
    FetchXorExplicit(w, xlen, SeqCst, cell, arg)
  }

  function FetchAnd(w: Width, xlen: nat, cell: nat, arg: int): (r: Effect)
    requires RmwWidthOk(w, xlen)
    requires IsWord(w, cell)
    ensures r.code == [Amo(AmoAnd, w, AqRl, -arg)]
    ensures r.ret == cell && r.cell == And(cell, Neg(w, arg))
  {
    FetchAndExplicit(w, xlen, SeqCst, cell, arg)
  }

  /*
   * Properties relating several calls
   */

  /** Exchange followed by a load returns the exchanged value, whatever the two orders. */
  lemma ExchangeThenLoad(w: Width, xlen: nat, o1: MemoryOrder, o2: MemoryOrder, cell: nat, v: int)
    requires RmwWidthOk(w, xlen)
    requires IsWord(w, cell)
    ensures AtomicLoadExplicit(w, xlen, o2, ExchangeExplicit(w, xlen, o1, cell, v).cell).ret == Conv(w, v)
  {
  }

  /** fetch_sub of what fetch_add added restores the cell. */
  lemma FetchSubUndoesFetchAdd(w: Width, xlen: nat, o1: MemoryOrder, o2: MemoryOrder, cell: nat, arg: int)
    requires RmwWidthOk(w, xlen)
    requires IsWord(w, cell)
    ensures FetchSubExplicit(w, xlen, o2, FetchAddExplicit(w, xlen, o1, cell, arg).cell, arg).cell == cell
  {
    var added := Conv(w, cell + arg);
    ConvAdd(w, -arg, cell + arg);
    assert Conv(w, added - arg) == Conv(w, -arg + added);
  }

  /** A store followed by a load of any orders reads back the stored value. */
  lemma StoreThenLoad(w: Width, xlen: nat, o1: MemoryOrder, o2: MemoryOrder, cell: nat, v: int)
    requires LoadStoreWidthOk(w, xlen)
    requires IsWord(w, cell)
    ensures AtomicLoadExplicit(w, xlen, o2, AtomicStoreExplicit(w, xlen, o1, cell, v).cell).ret == Conv(w, v)
  {
  }
}

=== FILE: riscv_isa.dfy ===
/**
 * The RISC-V instructions the atomic macros emit, with their sequential
 * meaning on one memory cell (RISC-V Unprivileged ISA 20191213: section 2.6
 * loads and stores, section 2.7 FENCE, sections 8.2 LR/SC and 8.4 AMOs).
 *
 * Fences and compiler barriers carry ordering only: on a single cell they
 * leave the value and the destination register alone. What a fence orders is
 * recorded in its predecessor and successor sets and stated in `FenceOrders`.
 */
module RiscvIsa {
  import opened Words

  /** The predecessor or successor set of a `fence`: reads, writes or both. */
  datatype Access = R | W | RW

  /** `a` names at least the accesses `b` names. */
  predicate Covers(a: Access, b: Access)
  {
    a == RW || a == b
  }

  /** The `.aq` / `.rl` / `.aqrl` suffixes of LR, SC and AMO instructions. */
  datatype Annot = Plain | Aq | Rl | AqRl

  predicate HasAq(a: Annot)
  {
    a == Aq || a == AqRl
  }

  predicate HasRl(a: Annot)
  {
    a == Rl || a == AqRl
  }

  datatype AmoOp = AmoSwap | AmoAdd | AmoAnd | AmoOr | AmoXor

  datatype Instr =
    | Fence(pred: Access, succ: Access)           // fence pred,succ
    | CompilerBarrier                              // asm volatile("" ::: "memory")
    | Load(lw: Width)                              // lb / lh / lw / ld
    | Store(sw: Width, src: int)                   // sb / sh / sw / sd of register src
    | Amo(op: AmoOp, aw: Width, annot: Annot, arg: int)  // amo<op>.{w,d}<annot>
      /** The strong compare-and-swap loop
            0: lr<lr> rd, (a); bne rd, expected, 1f; sc<sc> t, desired, (a); bnez t, 0b; 1:  */
    | CasLoop(cw: Width, lr: Annot, sc: Annot, expected: int, desired: int)

  predicate IsAccess(i: Instr)
  {
    i.Load? || i.Store? || i.Amo? || i.CasLoop?
  }

  /** `i` is a fence that keeps every `p` access before it ahead of every `s` access after it. */
  predicate FenceOrders(i: Instr, p: Access, s: Access)
  {
    i.Fence? && Covers(i.pred, p) && Covers(i.succ, s)
  }

  /**
   * Whether the instruction exists on a hart of register width `xlen`:
   * doubleword loads, stores, LR/SC and AMOs are RV64-only, and the A
   * extension has no byte or halfword LR/SC or AMO.
   */
  predicate Encodable(i: Instr, xlen: nat)
  {
    match i
    case Load(w) => w != W64 || xlen >= 64
    case Store(w, _) => w != W64 || xlen >= 64
    case Amo(_, w, _, _) => w == W32 || (w == W64 && xlen >= 64)
    case CasLoop(w, _, _, _, _) => w == W32 || (w == W64 && xlen >= 64)
    case _ => true
  }

  /** The cell the code works on and the destination register `rd`. */
  datatype Hart = Hart(mem: nat, rd: nat)

  /** The value an AMO writes back (section 8.4), truncated to the operand width. */
  function AmoValue(op: AmoOp, w: Width, prior: nat, arg: nat): (r: nat)
    requires IsWord(w, prior) && IsWord(w, arg)
    ensures IsWord(w, r)
  {
    BitwiseWord(w, prior, arg);
    match op
    case AmoSwap => arg
    case AmoAdd => Conv(w, prior + arg)
    case AmoAnd => And(prior, arg)
    case AmoOr => Or(prior, arg)
    case AmoXor => Xor(prior, arg)
  }

  /**
   * The LR/SC compare-and-swap loop. `writes` lists the stores other harts
   * make between an `lr` and its `sc`: each one breaks the reservation, the
   * `sc` fails and the loop starts over on the value written. When no write
   * intervenes the `sc` succeeds. Whatever the interference, the outcome is
   * that of one indivisible compare-and-swap on the value the last `lr` read.
   */
  function LrScLoop(w: Width, mem: nat, expected: nat, desired: nat, writes: seq<int>): (h: Hart)
    requires IsWord(w, mem) && IsWord(w, expected) && IsWord(w, desired)
    ensures IsWord(w, h.mem) && IsWord(w, h.rd)
    ensures h.mem == (if h.rd == expected then desired else h.rd)
    ensures h.rd == mem || exists k :: 0 <= k < |writes| && h.rd == Conv(w, writes[k])
    ensures writes == [] ==> h.rd == mem
    decreases |writes|
  {
    if mem != expected then Hart(mem, mem)
    else if writes == [] then Hart(desired, mem)
    else
      var h := LrScLoop(w, Conv(w, writes[0]), expected, desired, writes[1..]);
      assert h.rd == Conv(w, writes[0]) || exists k :: 0 <= k < |writes| && h.rd == Conv(w, writes[k]) by {
        if h.rd != Conv(w, writes[0]) {
          var k :| 0 <= k < |writes[1..]| && h.rd == Conv(w, writes[1..][k]);
          assert h.rd == Conv(w, writes[k + 1]);
        }
      }
      h
  }

  /** One instruction on a cell holding a `w`-bit value for every access of the code. */
  function Step(i: Instr, h: Hart, writes: seq<int>): Hart
  {
    match i
    case Fence(_, _) => h
    case CompilerBarrier => h
    case Load(w) => Hart(h.mem, h.mem)
    case Store(w, src) => Hart(Conv(w, src), h.rd)
    case Amo(op, w, _, arg) =>
      if IsWord(w, h.mem) then Hart(AmoValue(op, w, h.mem, Conv(w, arg)), h.mem) else h
    case CasLoop(w, _, _, e, d) =>
      if IsWord(w, h.mem) then LrScLoop(w, h.mem, Conv(w, e), Conv(w, d), writes) else h
  }

  /** Straight-line code; `writes` is the interference seen by its CAS loop, if any. */
  function Exec(code: seq<Instr>, h: Hart, writes: seq<int>): Hart
    decreases |code|
  {
    if code == [] then h else Exec(code[1..], Step(code[0], h, writes), writes)
  }
}

=== FILE: riscv_select.dfy ===
/**
 * The RISC-V instruction selector of `stdatomic_asm.h`: for every macro, the
 * memory order picks the fences around a plain load or store, the suffixes
 * of an AMO, of an LR/SC pair, or the fence of `atomic_thread_fence`.
 *
 * Each table is stated against what the order obliges (C11 section 7.17.3
 * and the mapping of Appendix A.5 of the RISC-V Unprivileged ISA 20191213):
 * acquire orders keep later accesses after the access, release orders keep
 * earlier accesses before it.
 */
module RiscvSelect {
  import opened Orders
  import opened Words
  import opened RiscvIsa

  /**
   * Width switch of `__atomic_load_asm` and `__atomic_store_asm`: sizes 1, 2,
   * 4 and 8, where 8 reaches `__builtin_unreachable` unless `__riscv_xlen >= 64`.
   */
  predicate LoadStoreWidthOk(w: Width, xlen: nat)
  {
    w != W64 || xlen >= 64
  }

  /**
   * Width switch of `__atomic_cmpxchg_asm` and `__atomic_op_asm`: sizes 1 and 2
   * reach `__builtin_unreachable`, and so does 8 unless `__riscv_xlen >= 64`.
   */
  predicate RmwWidthOk(w: Width, xlen: nat)
  {
    w == W32 || (w == W64 && xlen >= 64)
  }

  function AccessCount(code: seq<Instr>): nat
  {
    if code == [] then 0 else Bit(IsAccess(code[0])) + AccessCount(code[1..])
  }

  /** Some fence placed after a memory access orders `p` accesses before `s` accesses. */
  predicate FenceAfterAccess(code: seq<Instr>, p: Access, s: Access)
  {
    exists j, k | 0 <= j < k < |code| :: IsAccess(code[j]) && FenceOrders(code[k], p, s)
  }

  /** Some fence placed before a memory access orders `p` accesses before `s` accesses. */
  predicate FenceBeforeAccess(code: seq<Instr>, p: Access, s: Access)
  {
    exists j, k | 0 <= j < k < |code| :: FenceOrders(code[j], p, s) && IsAccess(code[k])
  }

  predicate AllEncodable(code: seq<Instr>, xlen: nat)
  {
    forall k | 0 <= k < |code| :: Encodable(code[k], xlen)
  }

  /**
   * `atomic_load_explicit`: acquire adds `fence r,rw` after the load, seq_cst
   * also puts `fence rw,rw` before it; every other order takes the relaxed
   * `default:` branch and emits the bare load.
   */
  function LoadCode(w: Width, o: MemoryOrder): (code: seq<Instr>)
    ensures AccessCount(code) == 1 && Load(w) in code
    ensures FenceAfterAccess(code, R, RW) <==> o == Acquire || o == SeqCst
    ensures FenceBeforeAccess(code, RW, RW) <==> o == SeqCst
    ensures o != Acquire && o != SeqCst ==> code == [Load(w)]
    ensures |code| == 1 + (if o == Acquire || o == SeqCst then 1 else 0) + (if o == SeqCst then 1 else 0)
    ensures forall i | 0 <= i < |code| && code[i] != Load(w) ::
              code[i] == Fence(R, RW) || (o == SeqCst && code[i] == Fence(RW, RW))
    ensures forall j, k | 0 <= j < k < |code| && IsAccess(code[j]) :: code[k] == Fence(R, RW)
  {
    match o
    case Acquire =>
      var code := [Load(w), Fence(R, RW)];
      assert code[1..] == [Fence(R, RW)] && code[1..][1..] == [];
      assert IsAccess(code[0]) && FenceOrders(code[1], R, RW);
      assert AccessCount(code[1..]) == 0;
      code
    case SeqCst =>
      var code := [Fence(RW, RW), Load(w), Fence(R, RW)];
      assert code[1..] == [Load(w), Fence(R, RW)] && code[1..][1..] == [Fence(R, RW)];
      assert code[1..][1..][1..] == [];
      assert AccessCount(code[1..][1..]) == 0;
      assert AccessCount(code[1..]) == 1;
      assert IsAccess(code[1]) && FenceOrders(code[2], R, RW);
      assert FenceOrders(code[0], RW, RW) && IsAccess(code[1]);
      code
    case _ => [Load(w)]
  }

  /**
   * `atomic_store_explicit`: release and seq_cst both put one `fence rw,w`
   * before the store; every other order emits the bare store. Nothing is
   * emitted after the store and no full fence is emitted at all.
   */
  function StoreCode(w: Width, o: MemoryOrder, v: int): (code: seq<Instr>)
    ensures AccessCount(code) == 1 && code[|code| - 1] == Store(w, v)
    ensures FenceBeforeAccess(code, RW, W) <==> o == Release || o == SeqCst
    ensures !FenceBeforeAccess(code, RW, RW)
    ensures o != Release && o != SeqCst ==> code == [Store(w, v)]
    ensures |code| == 1 + (if o == Release || o == SeqCst then 1 else 0)
    ensures forall i | 0 <= i < |code| && code[i] != Store(w, v) :: code[i] == Fence(RW, W)
  {
    if o == Release || o == SeqCst then
      var code := [Fence(RW, W), Store(w, v)];
      assert code[1..] == [Store(w, v)] && code[1..][1..] == [];
      assert FenceOrders(code[0], RW, W) && IsAccess(code[1]);
      assert AccessCount(code[1..]) == 1;
      code
    else
      [Store(w, v)]
  }

  /**
   * The suffix table of `__atomic_op` (also used verbatim by the flag
   * macros): `.aq` exactly for acquire-class orders, consume promoted, and
   * `.rl` exactly for release-class orders, so acq_rel and seq_cst both give `.aqrl`.
   */
  function AmoAnnot(o: MemoryOrder): (a: Annot)
    ensures HasAq(a) <==> IsAcquire(Promote(o))
    ensures HasRl(a) <==> IsRelease(o)
  {
    match o
    case Acquire => Aq
    case Consume => Aq
    case Release => Rl
    case AcqRel => AqRl
    case SeqCst => AqRl
    case Relaxed => Plain
  }

  /**
   * The suffix table of `__atomic_cmpxchg_strong` as (lr suffix, sc suffix):
   * the `lr` is acquire for acquire-class orders and additionally release for
   * seq_cst (`lr.aqrl` / `sc.rl`); the `sc` is release for release-class orders.
   */
  function CasAnnots(o: MemoryOrder): (a: (Annot, Annot))
    ensures HasAq(a.0) <==> IsAcquire(Promote(o))
    ensures HasRl(a.0) <==> o == SeqCst
    ensures HasRl(a.1) <==> IsRelease(o)
    ensures !HasAq(a.1)
  {
    match o
    case Acquire => (Aq, Plain)
    case Consume => (Aq, Plain)
    case Release => (Plain, Rl)
    case AcqRel => (Aq, Rl)
    case SeqCst => (AqRl, Rl)
    case Relaxed => (Plain, Plain)
  }

  /**
   * `atomic_thread_fence`: relaxed is a compiler barrier only; otherwise the
   * fence keeps earlier reads ahead of later accesses exactly for
   * acquire-class orders and earlier accesses ahead of later writes exactly
   * for release-class orders (acq_rel gets `fence rw,rw`, not `fence.tso`).
   */
  function ThreadFenceCode(o: MemoryOrder): (i: Instr)
    ensures i == CompilerBarrier <==> o == Relaxed
    ensures FenceOrders(i, R, RW) <==> IsAcquire(Promote(o))
    ensures FenceOrders(i, RW, W) <==> IsRelease(o)
  {
    match o
    case Acquire => Fence(R, RW)
    case Consume => Fence(R, RW)
    case Release => Fence(RW, W)
    case AcqRel => Fence(RW, RW)
    case SeqCst => Fence(RW, RW)
    case Relaxed => CompilerBarrier
  }

  function AmoCode(op: AmoOp, w: Width, o: MemoryOrder, arg: int): seq<Instr>
  {
    [Amo(op, w, AmoAnnot(o), arg)]
  }

  function CasCode(w: Width, o: MemoryOrder, expected: int, desired: int): seq<Instr>
  {
    [CasLoop(w, CasAnnots(o).0, CasAnnots(o).1, expected, desired)]
  }

  /**
   * The width switches accept a size exactly when every instruction selected
   * for it exists on the hart: `__builtin_unreachable` guards precisely the
   * sizes the ISA cannot encode.
   */
  lemma WidthSwitchMatchesIsa(w: Width, xlen: nat, o: MemoryOrder, op: AmoOp, a: int, b: int)
    ensures AllEncodable(LoadCode(w, o), xlen) <==> LoadStoreWidthOk(w, xlen)
    ensures AllEncodable(StoreCode(w, o, a), xlen) <==> LoadStoreWidthOk(w, xlen)
    ensures AllEncodable(AmoCode(op, w, o, a), xlen) <==> RmwWidthOk(w, xlen)
    ensures AllEncodable(CasCode(w, o, a, b), xlen) <==> RmwWidthOk(w, xlen)
  {
    var load := LoadCode(w, o);
    var store := StoreCode(w, o, a);
    assert Load(w) in load;
    assert Store(w, a) in store;
    assert AmoCode(op, w, o, a)[0].aw == w;
    assert CasCode(w, o, a, b)[0].cw == w;
  }

  /**
   * Consume is promoted to acquire in the AMO, CAS and fence tables, but the
   * load table has no consume case: a consume load is a relaxed load.
   */
  lemma ConsumeHandling(w: Width)
    ensures AmoAnnot(Consume) == AmoAnnot(Acquire)
    ensures CasAnnots(Consume) == CasAnnots(Acquire)
    ensures ThreadFenceCode(Consume) == ThreadFenceCode(Acquire)
    ensures LoadCode(w, Consume) == LoadCode(w, Relaxed) != LoadCode(w, Acquire)
  {
  }
}

=== FILE: words.dfy ===
/**
 * Fixed-width unsigned cells. A cell of width `w` holds a natural number
 * below `Modulus(w)`; the C conversion of any integer to the cell's type is
 * reduction modulo `Modulus(w)` (ISO/IEC 9899:2011 section 6.3.1.3).
 * Bitwise and/or/xor are defined bit by bit on naturals.
 */
module Words {

  /** The operand sizes the macros switch on: `sizeof` 1, 2, 4 and 8. */
  datatype Width = W8 | W16 | W32 | W64

  function Bytes(w: Width): nat
  {
    match w
    case W8 => 1
    case W16 => 2
    case W32 => 4
    case W64 => 8
  }

  function Bits(w: Width): nat
  {
    8 * Bytes(w)
  }

  function Modulus(w: Width): nat
  {
    match w
    case W8 => 0x100
    case W16 => 0x1_0000
    case W32 => 0x1_0000_0000
    case W64 => 0x1_0000_0000_0000_0000
  }

  function Pow2(n: nat): (r: nat)
    ensures r >= 1
  {
    if n == 0 then 1 else 2 * Pow2(n - 1)
  }

  lemma {:induction false} Pow2Add(a: nat, b: nat)
    ensures Pow2(a + b) == Pow2(a) * Pow2(b)
  {
    if a > 0 {
      Pow2Add(a - 1, b);
    }
  }

  /** The modulus of a width is two to the number of its bits. */
  lemma ModulusIsPow2(w: Width)
    ensures Modulus(w) == Pow2(Bits(w))
  {
    Pow2Add(4, 4);
    assert Pow2(8) == 0x100;
    Pow2Add(8, 8);
    assert Pow2(16) == 0x1_0000;
    Pow2Add(16, 16);
    assert Pow2(32) == 0x1_0000_0000;
    Pow2Add(32, 32);
  }

  predicate IsWord(w: Width, x: int)
  {
    0 <= x < Modulus(w)
  }

  /** Conversion of an integer value to the unsigned cell type. */
  function Conv(w: Width, x: int): (r: nat)
    ensures IsWord(w, r)
    ensures (x - r) % Modulus(w) == 0
    ensures IsWord(w, x) ==> r == x
  {
    x % Modulus(w)
  }

  /** Two's-complement negation in the cell type (C's unary minus, converted back). */
  function Neg(w: Width, x: int): (r: nat)
    ensures IsWord(w, r)
    ensures (r + x) % Modulus(w) == 0
  {
    Conv(w, -x)
  }

  /** Converting an operand before adding it makes no difference to the sum in the cell. */
  lemma ConvAdd(w: Width, a: int, b: int)
    ensures Conv(w, a + Conv(w, b)) == Conv(w, a + b)
  {
    var m := Modulus(w);
    var x := a + b % m;
    var q := b / m;
    assert a + b == (x / m + q) * m + x % m;
    ModUnique(a + b, x / m + q, x % m, m);
  }

  /** Euclidean division leaves one quotient and one remainder. */
  lemma ModUnique(y: int, k: int, r: int, m: int)
    requires m > 0 && 0 <= r < m && y == k * m + r
    ensures y % m == r
  {
    var k', r' := y / m, y % m;
    assert y == k' * m + r';
    var d := k - k';
    assert d * m == r' - r by {
      assert d * m == k * m - k' * m;
    }
    if d > 0 {
      MulAtLeast(d, m);
    } else if d < 0 {
      assert (-d) * m == -(d * m);
      MulAtLeast(-d, m);
    }
  }

  lemma MulAtLeast(d: int, m: int)
    requires d >= 1 && m > 0
    ensures d * m >= m
  {
    assert d * m == (d - 1) * m + m;
  }

  function Bit(b: bool): nat
  {
    if b then 1 else 0
  }

  function And(a: nat, b: nat): nat
    decreases a + b
  {
    if a == 0 || b == 0 then 0
    else 2 * And(a / 2, b / 2) + Bit(a % 2 == 1 && b % 2 == 1)
  }

  function Or(a: nat, b: nat): nat
    decreases a + b
  {
    if a == 0 && b == 0 then 0
    else 2 * Or(a / 2, b / 2) + Bit(a % 2 == 1 || b % 2 == 1)
  }

  function Xor(a: nat, b: nat): nat
    decreases a + b
  {
    if a == 0 && b == 0 then 0
    else 2 * Xor(a / 2, b / 2) + Bit(a % 2 != b % 2)
  }

  /** and/or/xor of two n-bit values is an n-bit value. */
  lemma {:induction false} BitwiseBound(a: nat, b: nat, n: nat)
    requires a < Pow2(n) && b < Pow2(n)
    ensures And(a, b) < Pow2(n)
    ensures Or(a, b) < Pow2(n)
    ensures Xor(a, b) < Pow2(n)
  {
    if n > 0 && (a != 0 || b != 0) {
      BitwiseBound(a / 2, b / 2, n - 1);
    }
  }

  lemma BitwiseWord(w: Width, a: nat, b: nat)
    requires IsWord(w, a) && IsWord(w, b)
    ensures IsWord(w, And(a, b)) && IsWord(w, Or(a, b)) && IsWord(w, Xor(a, b))
  {
    ModulusIsPow2(w);
    BitwiseBound(a, b, Bits(w));
  }

  /** Zero is the identity of or and xor. */
  lemma {:induction false} ZeroIdentity(x: nat)
    ensures Or(0, x) == x && Xor(0, x) == x
  {
    if x != 0 {
      ZeroIdentity(x / 2);
    }
  }

  lemma {:induction false} AndCommutes(a: nat, b: nat)
    ensures And(a, b) == And(b, a)
    decreases a + b
  {
    if a != 0 && b != 0 {
      AndCommutes(a / 2, b / 2);
    }
  }

  lemma {:induction false} AndAssociates(a: nat, b: nat, c: nat)
    ensures And(And(a, b), c) == And(a, And(b, c))
    decreases a + b + c
  {
    if a != 0 && b != 0 && c != 0 {
      AndAssociates(a / 2, b / 2, c / 2);
      var ab := And(a, b);
      var bc := And(b, c);
      assert ab / 2 == And(a / 2, b / 2) && ab % 2 == Bit(a % 2 == 1 && b % 2 == 1);
      assert bc / 2 == And(b / 2, c / 2) && bc % 2 == Bit(b % 2 == 1 && c % 2 == 1);
    }
  }
}

=== FILE: x86_atomics.dfy ===
/**
 * The x86-64 half of `stdatomic_asm.h`: compare-exchange, exchange and
 * fetch_add are single locked instructions (`lock cmpxchg`, `xchg`,
 * `lock xadd`) of any operand size, and fetch_and / fetch_or / fetch_xor are
 * a C retry loop around the compare-exchange. This back-end takes no memory
 * order: locked instructions are sequentially consistent.
 */
module X86Atomics {
  import opened Words

  /** Flags, accumulator and memory after `lock cmpxchg src, mem`. */
  datatype Cmpxchg = Cmpxchg(zf: bool, acc: nat, mem: nat)

  /**
   * `lock cmpxchg`: when the accumulator equals memory, ZF is set and memory
   * takes the source; otherwise ZF is clear and the accumulator takes memory.
   */
  function LockCmpxchg(acc: nat, mem: nat, src: nat): Cmpxchg
  {
    if acc == mem then Cmpxchg(true, acc, src) else Cmpxchg(false, mem, mem)
  }

  /** `lock xadd reg, mem`: the register gets the old memory, memory gets the sum. */
  function LockXadd(w: Width, reg: nat, mem: nat): (nat, nat)
  {
    (mem, Conv(w, mem + reg))
  }

  /** `xchg reg, mem`: register and memory swap. */
  function Xchg(reg: nat, mem: nat): (nat, nat)
  {
    (mem, reg)
  }

  /** The returned flag, the cell afterwards and `*exp` afterwards. */
  datatype CasResult = CasResult(success: bool, cell: nat, expected: nat)

  /** The value returned and the cell afterwards. */
  datatype Rmw = Rmw(ret: nat, cell: nat)

  /**
   * `atomic_compare_exchange_strong`: succeeds exactly when the cell holds
   * `*exp`, in which case the cell takes `desired`; `*exp` is then the value
   * the cell held, so unchanged on success and refreshed on failure.
   */
  function CompareExchangeStrong(w: Width, cell: nat, expected: nat, desired: int): (r: CasResult)
    requires IsWord(w, cell) && IsWord(w, expected)
    ensures r.success <==> cell == expected
    ensures r.cell == (if cell == expected then Conv(w, desired) else cell)
    ensures r.expected == cell
    ensures r.success ==> r.expected == expected
  {
    var c := LockCmpxchg(expected, cell, Conv(w, desired));
    CasResult(c.zf, c.mem, c.acc)
  }

  /** `atomic_exchange` returns the old value and leaves the argument in the cell. */
  function Exchange(w: Width, cell: nat, arg: int): (r: Rmw)
    requires IsWord(w, cell)
    ensures r.ret == cell && r.cell == Conv(w, arg)
  {
    var (reg, mem) := Xchg(Conv(w, arg), cell);
    Rmw(reg, mem)
  }

  /** `atomic_fetch_add` returns the old value and leaves (old + arg) mod 2^w. */
  function FetchAdd(w: Width, cell: nat, arg: int): (r: Rmw)
    requires IsWord(w, cell)
    ensures r.ret == cell && r.cell == Conv(w, cell + arg)
  {
    ConvAdd(w, cell, arg);
    var (reg, mem) := LockXadd(w, Conv(w, arg), cell);
    Rmw(reg, mem)
  }

  datatype LogicOp = AndOp | OrOp | XorOp

  function Apply(op: LogicOp, a: nat, b: nat): nat
  {
    match op
    case AndOp => And(a, b)
    case OrOp => Or(a, b)
    case XorOp => Xor(a, b)
  }

  /**
   * `__atomic_fetch_op`: read the cell, compute `old op arg`, and
   * compare-exchange it in; retry from a fresh read when the exchange fails.
   * `writes[k]` is a store by another thread landing between the k-th read
   * and the k-th compare-exchange. Whatever those stores, the loop returns
   * the value its successful compare-exchange replaced, and the cell is then
   * that value combined with the argument.
   */
  function FetchOpLoop(op: LogicOp, w: Width, cell: nat, arg: nat, writes: seq<int>): (r: Rmw)
    requires IsWord(w, cell) && IsWord(w, arg)
    ensures IsWord(w, r.ret) && IsWord(w, r.cell)
    ensures r.cell == Apply(op, r.ret, arg)
    ensures r.ret == cell || exists k :: 0 <= k < |writes| && r.ret == Conv(w, writes[k])
    ensures writes == [] ==> r.ret == cell
    decreases |writes|
  {
    BitwiseWord(w, cell, arg);
    var prior := cell;
    var next := Apply(op, prior, arg);
    var seen := if writes == [] then cell else Conv(w, writes[0]);
    var cas := CompareExchangeStrong(w, seen, prior, next);
    if cas.success then
      Rmw(prior, cas.cell)
    else
      var r := FetchOpLoop(op, w, cas.cell, arg, writes[1..]);
      assert r.ret == Conv(w, writes[0]) || exists k :: 0 <= k < |writes| && r.ret == Conv(w, writes[k]) by {
        if r.ret != Conv(w, writes[0]) {
          var k :| 0 <= k < |writes[1..]| && r.ret == Conv(w, writes[1..][k]);
          assert r.ret == Conv(w, writes[k + 1]);
        }
      }
      r
  }

  function FetchAnd(w: Width, cell: nat, arg: int, writes: seq<int>): (r: Rmw)
    requires IsWord(w, cell)
    ensures r.cell == And(r.ret, Conv(w, arg))
    ensures r.ret == cell || exists k :: 0 <= k < |writes| && r.ret == Conv(w, writes[k])
    ensures writes == [] ==> r.ret == cell
  {
    FetchOpLoop(AndOp, w, cell, Conv(w, arg), writes)
  }

  function FetchOr(w: Width, cell: nat, arg: int, writes: seq<int>): (r: Rmw)
    requires IsWord(w, cell)
    ensures r.cell == Or(r.ret, Conv(w, arg))
    ensures r.ret == cell || exists k :: 0 <= k < |writes| && r.ret == Conv(w, writes[k])
    ensures writes == [] ==> r.ret == cell
  {
    FetchOpLoop(OrOp, w, cell, Conv(w, arg), writes)
  }

  function FetchXor(w: Width, cell: nat, arg: int, writes: seq<int>): (r: Rmw)
    requires IsWord(w, cell)
    ensures r.cell == Xor(r.ret, Conv(w, arg))
    ensures r.ret == cell || exists k :: 0 <= k < |writes| && r.ret == Conv(w, writes[k])
    ensures writes == [] ==> r.ret == cell
  {
    FetchOpLoop(XorOp, w, cell, Conv(w, arg), writes)
  }

  /*
   * fetch_and by several threads: the final cell does not depend on their order
   */

  /** The cell after one uncontended `atomic_fetch_and` per argument, in sequence order. */
  function FetchAndAll(w: Width, cell: nat, args: seq<int>): (r: nat)
    requires IsWord(w, cell)
    ensures IsWord(w, r)
    decreases |args|
  {
    if args == [] then cell
    else
      var step := FetchAnd(w, cell, args[0], []);
      BitwiseWord(w, cell, Conv(w, args[0]));
      FetchAndAll(w, step.cell, args[1..])
  }

  /** A mask applied before the others may as well be applied last. */
  lemma {:induction false} FetchAndLast(w: Width, cell: nat, x: int, args: seq<int>)
    requires IsWord(w, cell)
    ensures FetchAndAll(w, cell, [x] + args)
         == And(FetchAndAll(w, cell, args), Conv(w, x))
    decreases |args|
  {
    var m := Conv(w, x);
    BitwiseWord(w, cell, m);
    assert ([x] + args)[1..] == args;
    if args != [] {
      var a := Conv(w, args[0]);
      BitwiseWord(w, cell, a);
      BitwiseWord(w, And(cell, m), a);
      var rest := args[1..];
      // FetchAndAll(cell, [x] + args) == FetchAndAll(And(And(cell, m), a), rest)
      assert ([And(cell, m) as int] + args)[1..] == args;
      AndAssociates(cell, m, a);
      AndCommutes(m, a);
      AndAssociates(cell, a, m);
      assert And(And(cell, m), a) == And(And(cell, a), m);
      FetchAndLast(w, And(cell, a), x, rest);
      assert ([x] + rest)[1..] == rest;
      calc {
        FetchAndAll(w, cell, [x] + args);
        FetchAndAll(w, And(cell, m), args);
        FetchAndAll(w, And(And(cell, m), a), rest);
        FetchAndAll(w, And(And(cell, a), m), rest);
        FetchAndAll(w, And(cell, a), [x] + rest);
        And(FetchAndAll(w, And(cell, a), rest), m);
        And(FetchAndAll(w, cell, args), m);
      }
    }
  }

  lemma {:induction false} FetchAndAllSplit(w: Width, cell: nat, a: seq<int>, b: seq<int>)
    requires IsWord(w, cell)
    ensures FetchAndAll(w, cell, a + b) == FetchAndAll(w, FetchAndAll(w, cell, a), b)
    decreases |a|
  {
    if a != [] {
      assert (a + b)[1..] == a[1..] + b;
      BitwiseWord(w, cell, Conv(w, a[0]));
      FetchAndAllSplit(w, And(cell, Conv(w, a[0])), a[1..], b);
    } else {
      assert a + b == b;
    }
  }

  lemma MultisetRemoveAt(t: seq<int>, i: nat)
    requires i < |t|
    ensures multiset(t[..i] + t[i + 1..]) == multiset(t) - multiset{t[i]}
  {
    assert t == t[..i] + [t[i]] + t[i + 1..];
    assert multiset(t) == multiset(t[..i]) + multiset{t[i]} + multiset(t[i + 1..]);
  }

  /**
   * Threads each performing one fetch_and leave the same cell in every order
   * they are served in: any two orders of the same masks agree.
   */
  lemma {:induction false} FetchAndOrderIrrelevant(w: Width, cell: nat, s: seq<int>, t: seq<int>)
    requires IsWord(w, cell)
    requires multiset(s) == multiset(t)
    ensures FetchAndAll(w, cell, s) == FetchAndAll(w, cell, t)
    decreases |s|
  {
    if s == [] {
      assert |t| == |multiset(t)| == 0;
    } else {
      var x := s[0];
      assert x in multiset(t);
      var i :| 0 <= i < |t| && t[i] == x;
      var front, back := t[..i], t[i + 1..];
      MultisetRemoveAt(t, i);
      assert s == [x] + s[1..];
      assert multiset(s[1..]) == multiset(front + back);
      var m := Conv(w, x);
      var mid := FetchAndAll(w, cell, front);
      calc {
        FetchAndAll(w, cell, s);
        { FetchAndLast(w, cell, x, s[1..]); }
        And(FetchAndAll(w, cell, s[1..]), m);
        { FetchAndOrderIrrelevant(w, cell, s[1..], front + back); }
        And(FetchAndAll(w, cell, front + back), m);
        { FetchAndAllSplit(w, cell, front, back); }
        And(FetchAndAll(w, mid, back), m);
        { FetchAndLast(w, mid, x, back); }
        FetchAndAll(w, mid, [x] + back);
        { FetchAndAllSplit(w, cell, front, [x] + back); }
        FetchAndAll(w, cell, front + ([x] + back));
        { assert t == front + ([x] + back); }
        FetchAndAll(w, cell, t);
      }
    }
  }
}
